=== FILE: README.md ===
# equistore block metadata and `solve`, modelled in Dafny

This project models two pieces of equistore's structural bookkeeping, with every dense array reduced to its shape (a `seq<nat>`):

- **Block construction and transformation** (`equistore-core/src/blocks.rs`). This covers:
  - the check that an array's shape matches its samples, components and properties labels;
  - the rule that every component has exactly one dimension;
  - `BasicBlock::new` and `TensorBlock::new`;
  - `TensorBlock::add_gradient`, with its checks on the parameter name, the gradient samples and the gradient components;
  - `components_to_properties` on a basic block and on a tensor block. It moves one component axis into the properties: the new property entries are the Cartesian product of the component's entries (outer) with the old properties (inner), and the last axis of the shape becomes their count.
- **The structural layer of `solve`** (`python/src/equistore/operations/solve.py`). This covers:
  - the key check;
  - the square check over every X block, made before any block is solved;
  - the per-block sample, component and gradient checks;
  - the shapes of the flattened and gradient-stacked linear system;
  - the labels of the result blocks.

  The backend's numeric solve is represented only by the shape of what it returns.

Labels are an abstract datatype: a list of dimension names and a list of integer entries. Every entry has one value per name, no entry appears twice, and equality is order-sensitive. The labels builder's `add` appends an entry and refuses a wrong width or a repeated entry. Mutating Rust methods become functions from the old block to a `Result` holding the new one.

Files, one module each:

- `results.dfy`: `Option` and `Result`.
- `sequences.dfy`: `Distinct` and `RemoveAt`.
- `labels.dfy`: `LabelSets`, the labels, the builder and the Cartesian product of entries.
- `shapes.dfy`: element counts, reshape to two dimensions, vertical stacking, merging an axis into the last.
- `blocks.dfy`: `BasicBlock` and its checks.
- `tensor_blocks.dfy`: `TensorBlock`.
- `tensor_maps.dfy`: the key lookup of a tensor map.
- `operations.dfy`: `solve`.
- `block_examples.dfy`: the scenarios of the Rust unit tests.

## Model

| member | source | states |
|---|---|---|
| Blocks.CheckDataAndLabels | equistore-core/src/blocks.rs:41-93 | Succeeds exactly when all of these hold: rank = number of components + 2; axis 0 = sample count; every interior axis = its component's entry count; last axis = property count; no two components share a name list. Failures are reported in `check_data_and_labels`'s order: rank, samples, repeated names, component axes, properties. Each failure is pinned to its error: with rank, samples and names right, the first mismatching component axis is reported with its axis, length and count, and with every component axis right, a wrong last axis is reported as a properties mismatch at axis rank - 1, with that axis's length and the property count. Every error carries the caller's context. |
| Blocks.CheckComponentAxes | equistore-core/src/blocks.rs:73-83 | Succeeds exactly when every interior axis has its component's count. Otherwise it reports the first mismatching axis, with that axis's length and the component's count. |
| Blocks.NameSetSize | equistore-core/src/blocks.rs:64-71 | The set of component name lists never has more elements than there are components. It has exactly as many precisely when no two components share a name list, so comparing the set's size detects repeated names. |
| Blocks.CheckComponentLabels | equistore-core/src/blocks.rs:95-105 | Succeeds exactly when every component has one dimension. Otherwise it names the first component that does not, with its dimension count. |
| Blocks.NewBasicBlock | equistore-core/src/blocks.rs:107-122 | A block is built exactly when the shape matches the labels and every component has one dimension. A shape error is reported before a dimension error. The error is exactly the one `check_data_and_labels` reports with the values context, or, when the shape matches, the one `check_component_labels` reports. The block holds the given shape and labels. |
| Blocks.FindComponent | equistore-core/src/blocks.rs:127-137 | Returns the index of the first component whose names equal the requested ones, and nothing exactly when no component has them. |
| Blocks.MoveComponent | equistore-core/src/blocks.rs:124-169 | Fails with "not found" exactly when no component has the requested names. On success the result is the move of the first component with those names. |
| Blocks.MovedBlockIsMoved | equistore-core/src/blocks.rs:139-166 | The moved block removes exactly that component and keeps the others in order. It keeps the samples. Its property names are the component's names followed by the old ones. Its entry at position a × (old property count) + b is component entry a followed by property entry b. Its shape loses the component's axis and its last length becomes the new property count. |
| Blocks.MoveComponentFound | equistore-core/src/blocks.rs:124-156 | On valid labels, moving a component fails exactly when no component has the requested names. |
| Blocks.MoveComponentSucceeds | equistore-core/src/blocks.rs:148-156 | On valid labels the property builder never meets a repeated entry, so moving a component that is present succeeds. |
| Blocks.MoveComponentResult | equistore-core/src/blocks.rs:124-169 | On valid labels, moving the first component with the requested names gives exactly the spelled-out moved block. |
| Blocks.MoveComponentValid | equistore-core/src/blocks.rs:158-166 | A move keeps a valid block valid: the shape still matches the labels and the components keep one dimension and distinct names. The array keeps its number of elements, so the reshape is well defined. |
| LabelSets.Position | python/tests/labels.py:101-115 | Returns the index of the entry, which no earlier position holds, and nothing exactly when the labels do not contain it. |
| LabelSets.PositionIff | python/tests/labels.py:101-107 | On valid labels, the position of an entry is `i` exactly when entry `i` is that entry. |
| LabelSets.Add | equistore-core/src/blocks.rs:148-153 | The builder's `add` accepts exactly an entry of the right width that is not already present. It appends the entry and keeps the labels valid. |
| LabelSets.AddEntries | equistore-core/src/blocks.rs:148-155 | Adding entries one by one keeps the builder's names and appends the entries in order. A valid builder stays valid. A failure is the refusal of `add` for the first refused entry, given the builder with the earlier entries already added; every earlier entry was accepted. |
| LabelSets.ProductRows | equistore-core/src/blocks.rs:149-155 | The nested loop produces (outer count) × (inner count) entries. |
| LabelSets.AddEntriesSucceeds | equistore-core/src/blocks.rs:148-156 | The builder accepts, in order, every list of entries of the right width without repeats. |
| LabelSets.ProductRowsIsProduct | equistore-core/src/blocks.rs:149-155 | The nested loop produces (outer count) × (inner count) entries. Entry a × (inner count) + b is outer entry a followed by inner entry b. |
| LabelSets.ProductRowsDistinct | equistore-core/src/blocks.rs:149-155 | The product of two repeat-free entry lists of fixed widths has no repeated entry. |
| LabelSets.ProductLabelsValid | equistore-core/src/blocks.rs:141-156 | The product labels are valid and have as many entries as the component's count times the property count. |
| Shapes.Flatten | python/src/equistore/operations/solve.py:70-75 | `reshape(-1, n)`, with n the last axis, is refused exactly when n is 0, because the length that -1 stands for is then not determined. Otherwise the last axis becomes the columns, the product of the other axes becomes the rows, and every element is kept. |
| Shapes.VStack | python/src/equistore/operations/solve.py:79-85 | Stacking keeps the columns, puts the rows of both matrices together, and so adds the elements of both matrices. |
| Shapes.MergeIntoLast | equistore-core/src/blocks.rs:158-161 | The new shape has one axis fewer and its last length is the new one. The axes before the removed one are kept, and the later ones move down by one. |
| Shapes.MergeKeepsElementCount | equistore-core/src/blocks.rs:158-164 | When the new last length is the product of the removed axis and the old last axis, the element count is unchanged. |
| TensorBlocks.NewTensorBlock | equistore-core/src/blocks.rs:199-210 | Succeeds exactly when `BasicBlock::new` does and passes on its error otherwise. The new block has no gradients and keeps the block invariant. |
| TensorBlocks.CheckTrailingComponents | equistore-core/src/blocks.rs:318-330 | Succeeds exactly when the gradient's components end with the values' components. Otherwise it reports the first values component that differs from the one at the same place from the end. |
| TensorBlocks.AddGradient | equistore-core/src/blocks.rs:269-349 | Fails, in this order, on: an existing parameter, the reserved name `values`, samples without dimensions, a first sample name other than `sample`. After those, it reports in this order: the first component without one dimension (from `check_component_labels`), fewer gradient components than values components (with both counts), the first values component that differs from the gradient's component at the same place from the end, and then the shape error of `check_data_and_labels` with the gradient context and the values' properties. Succeeds exactly when, in addition, every component has one dimension, the gradient's components end with the values' components, and the shape matches against the values' properties. On success the values are unchanged, the gradient is stored with the values' properties, and the parameter is appended to the parameter list. |
| TensorBlocks.AddGradientValid | equistore-core/src/blocks.rs:332-346 | Adding a gradient keeps the block invariant: the parameter list stays repeat-free and names exactly the stored gradients. The new gradient shares the values' properties. |
| TensorBlocks.AppendedComponentRejected | equistore-core/src/blocks.rs:312-330 | Components are matched from the end. An extra component put after the values' component instead of before it is refused at values component 0. |
| TensorBlocks.MoveGradients | equistore-core/src/blocks.rs:357-359 | Succeeds exactly when the move succeeds in every gradient. The result has one entry per parameter, and each entry is that gradient with the first matching component moved. |
| TensorBlocks.GradientMoves | equistore-core/src/blocks.rs:312-330 | When the values have the component, a gradient whose components end with the values' components and have distinct names finds it at the same place counted from the end, and moving it succeeds. |
| TensorBlocks.MovedGradientsValid | equistore-core/src/blocks.rs:351-362 | After the move every gradient is still a valid gradient of the moved values: same properties, and components ending with the values' components. |
| TensorBlocks.ComponentsToProperties | equistore-core/src/blocks.rs:351-362 | Does nothing for an empty list of dimensions. Otherwise it succeeds exactly when a values component has those names, and fails with "not found" otherwise. On success the values and every gradient have that component moved, and the parameters are kept. |
| TensorBlocks.ComponentsToPropertiesValid | equistore-core/src/blocks.rs:351-362 | The move keeps the block invariant; in particular every gradient still has the values' properties. |
| TensorMaps.BlockFor | python/src/equistore/operations/solve.py:37 | Looking up a key gives nothing exactly when the key is absent. On valid keys it gives the block stored at the key's position. |
| Operations.FirstNonSquare | python/src/equistore/operations/solve.py:28-33 | Finds nothing exactly when every block is a square two-dimensional array. Otherwise it returns the first block that is not. |
| Operations.CheckComponentsAsWritten | python/src/equistore/operations/solve.py:56-68 | The comparison as written passes exactly when X has no components or the two component lists are equal. |
| Operations.CheckComponents | python/src/equistore/operations/solve.py:56-68 | The corrected comparison passes exactly when the two component lists are equal. |
| Operations.SquareSkipsComponentCheck | python/src/equistore/operations/solve.py:28-33 | A valid square X block has no components, so the comparison as written passes whatever Y's components are. |
| Operations.CounterexampleBlocksValid | python/src/equistore/operations/solve.py:28-33 | The two blocks of the counterexample are valid, X is square, and their samples agree. |
| Operations.ComponentCheckCounterexample | python/src/equistore/operations/solve.py:56-75 | For those blocks the comparison as written passes and the corrected one fails. X flattens to 2 rows and 2 columns, and Y flattens to 6 rows and 1 column. |
| Operations.ComponentCheckAlignsRows | python/src/equistore/operations/solve.py:70-75 | With equal samples and equal components, X and Y agree on every axis except the last. When both flatten, they have the same number of rows. |
| Operations.EmptyPropertiesRefused | python/src/equistore/operations/solve.py:70-75 | A Y block of shape [2, 0] next to a square X is refused at Y's reshape. An empty [0, 0] X is refused at X's reshape. |
| Operations.GradientsStackable | python/src/equistore/operations/solve.py:79-85 | The gradients of a valid block all have the values' property count as their last axis, so they can be stacked under the flattened values. |
| Operations.StackGradients | python/src/equistore/operations/solve.py:79-85 | Stacking the gradients keeps the columns and never removes rows. The element count is that of the top matrix plus those of every gradient. |
| Operations.LinearSystem | python/src/equistore/operations/solve.py:70-85 | Applies once both values arrays flatten, that is, once X and Y both have at least one property, which `_solve_block` establishes at lines 71-75. X's system has X's property count as columns and Y's has Y's. Each has at least the flattened values' rows. Each holds the values' elements plus those of the gradients, taken in X's parameter order. |
| Operations.BackendSolve | python/src/equistore/operations/solve.py:87 | Returns weights with (coefficient columns) rows and (target columns) columns. It never fails. The product of the coefficients with the weights has the targets' shape exactly when the coefficients and targets have the same number of rows, so with different row counts (2 and 6 in the Findings input) the weights returned fit no equation. |
| Operations.Transpose | python/src/equistore/operations/solve.py:90 | Exchanges rows and columns. Transposing twice gives the matrix back (Operations.TransposeInvolution). |
| Operations.SolveBlock | python/src/equistore/operations/solve.py:43-94 | Checks, in this order: samples, components, X's reshape (refused when X has no properties), Y's reshape (refused when Y has no properties), gradients. Each check's error is pinned: `SamplesDiffer`, `ComponentsDiffer`, the refused reshape of X, then of Y, and `GradientsDiffer` once all the earlier checks pass. It succeeds exactly when all of them pass. On success the result has Y's properties as samples and X's properties as properties. It has no components and no gradients, and its shape is Y's property count by X's property count. |
| Operations.SolveKey | python/src/equistore/operations/solve.py:36-38 | The block solved at a key uses X's block there and Y's block looked up by that key. |
| Operations.Collect | python/src/equistore/operations/solve.py:35-38 | The list of per-key results fails exactly when some entry fails, and then with the error of the first failing entry. Otherwise it holds every value in order. |
| Operations.SolveBlocks | python/src/equistore/operations/solve.py:35-38 | Succeeds exactly when every key's block solve succeeds, and gives the solved blocks in key order. Otherwise it reports the error of the first key whose solve fails. |
| Operations.Solve | python/src/equistore/operations/solve.py:26-40 | Different keys are reported first. Next comes the first non-square X block, before any block is solved. The call succeeds exactly when the keys agree, every X block is square and every block solve succeeds. A block solve fails, among other reasons, when X or Y has no properties and its reshape is refused. Otherwise it reports the first failing key's error. The result has X's keys and, at each key, the block solved from X's and Y's blocks there. |
| Operations.SolveBlockValid | python/src/equistore/operations/solve.py:89-94 | A solved block keeps the block invariant. |
| Operations.SolveResultValid | python/src/equistore/operations/solve.py:35-40 | The map returned by `solve` is valid: valid keys and one valid block per key. |
| BlockExamples.NoComponents | equistore-core/src/blocks.rs:380-411 | Without components, a matching shape is accepted. A wrong samples axis, a wrong properties axis and a wrong rank are each refused with their own error. |
| BlockExamples.MultipleComponents | equistore-core/src/blocks.rs:413-467 | One or two components are accepted. These are refused, each with its own error: a missing axis, a wrong component axis, a repeated component, and a component with two dimensions. |
| BlockExamples.GradientsOfValuesWithoutComponents | equistore-core/src/blocks.rs:473-486 | The block starts without gradients. The "foo" gradient, whose samples have two dimensions, is stored under its name with the values' properties. |
| BlockExamples.SecondGradientOfValuesWithoutComponents | equistore-core/src/blocks.rs:488-508 | A gradient with an extra component is stored next to "foo". Exactly those two parameters have gradients, with the expected sample, component and property names. |
| BlockExamples.GradientsOfValuesWithComponents | equistore-core/src/blocks.rs:511-528 | On one block, created without gradients: the "basic" gradient with the same component is stored, and then the "components" gradient with an extra component put first is stored next to it. |
| BlockExamples.AppendedGradientOfValuesWithComponents | equistore-core/src/blocks.rs:530-537 | On the same block, now holding both gradients, the "wrong" gradient with the extra component put last is refused at values component 0. |
| BlockExamples.ProductOrder | equistore/tests/components-to-properties.rs:38-45 | Two component entries times three property entries give six entries, component entry first. |

## Left out

- Array contents are not modelled; every array is its shape. This covers `swap_axes`, `reshape` and `try_clone`, and the data assertions of `equistore/tests/components-to-properties.rs`. They are calls into a foreign array interface.
- The comparison of data origins in `add_gradient` (equistore-core/src/blocks.rs:283-289) is not modelled. It asks the foreign array interface where the data lives; the model assumes both arrays have the same origin.
- The conversion of the parameter name to a C string, and its panic on an interior NUL (equistore-core/src/blocks.rs:345), are not modelled. This is interface plumbing; parameter names are plain strings.
- The backend's numeric solve and stacking (`_dispatch.solve`, `_dispatch.vstack`), floating point, and backend failures are not modelled. That includes a singular system and coefficient and target matrices with different row counts. Only the shape of the returned weight matrix is modelled.
- Operations.BackendSolve: returns a weight matrix even when the row counts differ, where the array library raises. The model states instead that such weights fit no equation.
- The labels implementation, its name grammar and its memory sharing are not part of this model. Labels are the abstract datatype described above.
- `_check_maps` and `_check_same_gradients` are not part of this model. They are represented by equality of the key labels and equality of the sets of gradient parameters.
- The gradient `HashMap` is visited in the order of the parameter list. That order could only decide which error is reported first, and for valid blocks no gradient move fails.
- Error messages are constructors of an error datatype rather than formatted strings. Their numbers (axis, length, count, component index) are kept.
- TensorMap construction and `TensorMap::components_to_properties` are not part of this model. A tensor map is a record of keys and blocks.
- `join`, `multiply` and `drop_blocks` are not modelled: only their tests are available, with no implementation to compare against.
- Axis lengths are unbounded naturals. An overflow of `usize` in an element count is not modelled.
- The `debug_assert!` that the dimension list is not empty (equistore-core/src/blocks.rs:125) is not modelled. The tensor-level operation returns early on an empty list, which is the only call path modelled.
- TensorBlocks.ComponentsToProperties: in `TensorBlock::components_to_properties`, a failing gradient move leaves the values already moved. The model returns only the error. For valid blocks no gradient move can fail (TensorBlocks.GradientMoves), so no partially moved block is observable.
- Blocks.MoveComponent: in `BasicBlock::components_to_properties`, a failing property builder leaves the component already removed. The model returns only the error. On valid labels the builder cannot fail (Blocks.MoveComponentSucceeds).
- TensorBlocks.ComponentsToProperties: requires the block invariant (TensorValid). The Rust method takes any block. The invariant holds for blocks changed only through `TensorBlock::new`, `add_gradient` and `components_to_properties` (TensorBlocks.NewTensorBlock, TensorBlocks.AddGradientValid, TensorBlocks.ComponentsToPropertiesValid). `values_mut` (equistore-core/src/blocks.rs:235) and `gradient_mut` (equistore-core/src/blocks.rs:252) hand out a `&mut BasicBlock` whose fields are public (equistore-core/src/blocks.rs:34-38). A caller of those accessors can break the invariant, and the model promises nothing for such blocks.
- Operations.SolveBlock: requires the block invariant (TensorValid) of X's and Y's blocks, which `_solve_block` does not check. It holds for blocks built and changed through the modelled operations, as for TensorBlocks.ComponentsToProperties above.
- Operations.Solve: requires the map invariant (MapValid) of X and Y: valid keys and one valid block per key, which `solve` does not check. It holds for maps whose blocks are built and changed through the modelled operations, as above.
- Blocks.MoveComponent: requires the array's rank to be the number of components plus 2, which `BasicBlock::components_to_properties` (equistore-core/src/blocks.rs:124-169) does not check. `BasicBlock::new` and `add_gradient` establish it through `check_data_and_labels`, and only a caller writing the public fields directly can break it.
- Operations.SolveBlock: samples are compared as whole labels: the same names and the same entries in the same order. `np.all(X.samples == Y.samples)` (python/src/equistore/operations/solve.py:51) compares entry by entry with numpy broadcasting. So when one side has exactly one entry and the other has none, the broadcast comparison is empty and passes, and the source fails only later, at a reshape or in the backend. The model reports `SamplesDiffer` there. How numpy compares labels with different names, or lengths that do not broadcast, depends on its version and is not modelled either.
- Operations.CheckComponentsAsWritten: each pair of components is compared as whole labels. `np.all(X_component == Y_component)` (python/src/equistore/operations/solve.py:64) broadcasts the same way, so a one-entry component against a zero-entry one passes in the source and fails in the model. The corrected comparison, Operations.CheckComponents, keeps exact equality, which the error text asks for.
- Operations.SolveBlock uses the corrected component comparison, not the one as written; see Findings. The error text at python/src/equistore/operations/solve.py:59-60 and 66-67 says that X and Y "should have the same components in the same order", and the corrected comparison checks exactly that.

## Findings

| source | as written | input that shows it | evidently intended | confidence | as-written member | corrected member |
|---|---|---|---|---|---|---|
| python/src/equistore/operations/solve.py:56-68 | X's and Y's components are compared only when X has components. The square check at lines 28-33 has already made every X block two-dimensional, so X never has components and the comparison never runs. | X values of shape [2, 2] with samples [[0], [1]] and no component. Y values of shape [2, 3, 1] with the same samples and one component of three entries. The check passes, yet the flattened X has 2 rows and the flattened Y has 6. | X and Y have the same components, as the error text at lines 59-60 and 66-67 says, so the flattened systems have the same number of rows. | medium, not executed | Operations.CheckComponentsAsWritten, Operations.ComponentCheckCounterexample | Operations.CheckComponents, Operations.ComponentCheckAlignsRows |

=== FILE: block_examples.dfy ===
/**
 * The block-construction scenarios of the unit tests of `blocks.rs`, stated
 * about the model: which shapes are accepted and which error each rejected
 * one reports first.
 */
module BlockExamples {
  import opened Results
  import opened LabelSets
  import opened Blocks
  import opened TensorBlocks

  /** Labels with one dimension called `name` and the entries 0 to `count` - 1. */
  function Numbered(name: string, count: nat): (r: Labels)
    ensures r.names == [name] && r.Count() == count && r.Size() == 1
  {
    Labels([name], seq(count, i => [i]))
  }

  /** Values without components: the samples axis, the properties axis and the rank are each checked. */
  lemma NoComponents()
    ensures
      var samples, properties := Numbered("samples", 4), Numbered("properties", 7);
      && NewTensorBlock([4, 7], samples, [], properties).Ok?
      && NewTensorBlock([3, 7], samples, [], properties) == Err(DataMismatch(ValuesData, SamplesMismatch(3, 4)))
      && NewTensorBlock([4, 9], samples, [], properties) == Err(DataMismatch(ValuesData, PropertiesMismatch(1, 9, 7)))
      && NewTensorBlock([4, 1, 7], samples, [], properties) == Err(DataMismatch(ValuesData, RankMismatch(3, 2)))
  {
  }

  /**
   * Values with components: one or two components are accepted, a missing
   * axis, a wrong component axis, a repeated component and a component with
   * two dimensions are refused, each with its own error.
   */
  lemma MultipleComponents()
    ensures
      var first, second := Numbered("component_1", 4), Numbered("component_2", 3);
      var samples, properties := Numbered("samples", 3), Numbered("properties", 2);
      var pair := Labels(["component_1", "component_2"], [[0, 1]]);
      && NewTensorBlock([3, 4, 2], samples, [first], properties).Ok?
      && NewTensorBlock([3, 4, 3, 2], samples, [first, second], properties).Ok?
      && NewTensorBlock([3, 4, 2], samples, [first, second], properties) ==
        Err(DataMismatch(ValuesData, RankMismatch(3, 4)))
      && NewTensorBlock([3, 4, 4, 2], samples, [first, second], properties) ==
        Err(DataMismatch(ValuesData, ComponentMismatch(2, 4, 3)))
      && NewTensorBlock([3, 4, 4, 2], samples, [first, first], properties) ==
        Err(DataMismatch(ValuesData, RepeatedComponentNames))
      && NewTensorBlock([3, 1, 2], samples, [pair], properties) == Err(NotSingleDimension(0, 2))
  {
    var first, second := Numbered("component_1", 4), Numbered("component_2", 3);
    var twice := [first, first];
    assert twice[0].names == twice[1].names;
    assert DistinctNames([first, second]);
  }

  /** The values of the gradient tests without components: four samples, seven properties. */
  function PlainValues(): BasicBlock {
    BasicBlock([4, 7], Numbered("samples", 4), [], Numbered("properties", 7))
  }

  /** The "foo" gradient: three samples with two sample dimensions, no component of its own. */
  function FooGradient(): BasicBlock {
    BasicBlock([3, 7], Labels(["sample", "foo"], [[0, 0], [1, 1], [3, -2]]), [], Numbered("properties", 7))
  }

  /** The "component" gradient: three samples and one extra component of five entries. */
  function ComponentGradient(): BasicBlock {
    BasicBlock([3, 5, 7], Numbered("sample", 3), [Numbered("component", 5)], Numbered("properties", 7))
  }

  /**
   * Gradients of values without components, first step: the block is created
   * without gradients and the "foo" gradient, with a two-dimension sample
   * list, is stored under its name with the values' properties.
   */
  lemma GradientsOfValuesWithoutComponents()
    ensures NewTensorBlock([4, 7], Numbered("samples", 4), [], Numbered("properties", 7)) ==
      Ok(TensorBlock(PlainValues(), map[], []))
    ensures
      var foo := FooGradient();
      AddGradient(TensorBlock(PlainValues(), map[], []), "foo", foo.shape, foo.samples, foo.components) ==
      Ok(TensorBlock(PlainValues(), map["foo" := foo], ["foo"]))
  {
    var foo := FooGradient();
    assert AddGradient(TensorBlock(PlainValues(), map[], []), "foo", foo.shape, foo.samples, foo.components).Ok?;
    assert [] + ["foo"] == ["foo"];
  }

  /**
   * Second step: a gradient with an extra component is stored next to the
   * first one; both parameters are listed and no other one is.
   */
  lemma SecondGradientOfValuesWithoutComponents()
    ensures
      var first := TensorBlock(PlainValues(), map["foo" := FooGradient()], ["foo"]);
      var g := ComponentGradient();
      var both := AddGradient(first, "component", g.shape, g.samples, g.components);
      && both == Ok(TensorBlock(PlainValues(), map["foo" := FooGradient(), "component" := g], ["foo", "component"]))
      && both.value.gradients.Keys == {"component", "foo"}
      && both.value.gradients["foo"].samples.names == ["sample", "foo"]
      && both.value.gradients["component"].components[0].names == ["component"]
      && both.value.gradients["component"].properties.names == ["properties"]
      && "baz" !in both.value.gradients
  {
    var first := TensorBlock(PlainValues(), map["foo" := FooGradient()], ["foo"]);
    var g := ComponentGradient();
    assert AddGradient(first, "component", g.shape, g.samples, g.components).Ok?;
    assert ["foo"] + ["component"] == ["foo", "component"];
  }

  /** The values of the gradient tests with a component: four samples, five component entries, seven properties. */
  function ComponentValues(): BasicBlock {
    BasicBlock([4, 5, 7], Numbered("samples", 4), [Numbered("component", 5)], Numbered("properties", 7))
  }

  /** The "basic" gradient: three samples and the values' component. */
  function BasicGradient(): BasicBlock {
    BasicBlock([3, 5, 7], Numbered("sample", 3), [Numbered("component", 5)], Numbered("properties", 7))
  }

  /** The "components" gradient: an extra component put before the values' component. */
  function PrependedGradient(): BasicBlock {
    BasicBlock([3, 3, 5, 7], Numbered("sample", 3), [Numbered("component_2", 3), Numbered("component", 5)],
      Numbered("properties", 7))
  }

  /**
   * Gradients of values with one component, on one block: the same component
   * is accepted, then an extra component put first is accepted next to it.
   */
  lemma GradientsOfValuesWithComponents()
    ensures NewTensorBlock([4, 5, 7], Numbered("samples", 4), [Numbered("component", 5)], Numbered("properties", 7)) ==
      Ok(TensorBlock(ComponentValues(), map[], []))
    ensures
      var g := BasicGradient();
      AddGradient(TensorBlock(ComponentValues(), map[], []), "basic", g.shape, g.samples, g.components) ==
      Ok(TensorBlock(ComponentValues(), map["basic" := g], ["basic"]))
    ensures
      var g := PrependedGradient();
      AddGradient(TensorBlock(ComponentValues(), map["basic" := BasicGradient()], ["basic"]),
        "components", g.shape, g.samples, g.components) ==
      Ok(TensorBlock(ComponentValues(), map["basic" := BasicGradient(), "components" := g], ["basic", "components"]))
  {
    var basic, prepended := BasicGradient(), PrependedGradient();
    assert AddGradient(TensorBlock(ComponentValues(), map[], []), "basic", basic.shape, basic.samples, basic.components).Ok?;
    assert [] + ["basic"] == ["basic"];
    assert prepended.components[1..] == basic.components;
    assert DistinctNames(prepended.components) by {
      assert NamesAt(prepended.components, 0) != NamesAt(prepended.components, 1);
    }
    assert ["basic"] + ["components"] == ["basic", "components"];
  }

  /**
   * Third step on the same block: the extra component put last is refused at
   * values component 0.
   */
  lemma AppendedGradientOfValuesWithComponents()
    ensures
      var both := TensorBlock(ComponentValues(), map["basic" := BasicGradient(), "components" := PrependedGradient()],
        ["basic", "components"]);
      AddGradient(both, "wrong", [3, 3, 5, 7], Numbered("sample", 3), [Numbered("component", 5), Numbered("component_2", 3)]) ==
      Err(GradientComponentMismatch(0))
  {
    var component, second := Numbered("component", 5), Numbered("component_2", 3);
    assert [component, second][1..] == [second];
  }

  /** The Cartesian product of two component entries with three properties, component entry first. */
  lemma ProductOrder()
    ensures ProductRows([[0], [1]], [[0], [1], [2]]) == [[0, 0], [0, 1], [0, 2], [1, 0], [1, 1], [1, 2]]
  {
    var inner := [[0], [1], [2]];
    assert [0] + [0] == [0, 0] && [0] + [1] == [0, 1] && [0] + [2] == [0, 2];
    assert [1] + [0] == [1, 0] && [1] + [1] == [1, 1] && [1] + [2] == [1, 2];
    assert Prefixed([0], inner) == [[0, 0], [0, 1], [0, 2]];
    assert Prefixed([1], inner) == [[1, 0], [1, 1], [1, 2]];
    assert ProductRows([[1]], inner) == Prefixed([1], inner) + ProductRows([], inner);
    assert [[0], [1]][1..] == [[1]];
  }
}

=== FILE: blocks.dfy ===
/**
 * Blocks: an array with its samples, components and properties labels
 * (`BasicBlock`). Arrays are known by their shape only.
 */
module Blocks {
  import opened Results
  import opened Sequences
  import opened LabelSets
  import opened Shapes

  /** One array, by its shape, with the labels of its first, interior and last axes. */
  datatype BasicBlock = BasicBlock(
    shape: seq<nat>,
    samples: Labels,
    components: seq<Labels>,
    properties: Labels
  )

  /** Which array a shape check is about; it selects the prefix of the message. */
  datatype DataContext = ValuesData | GradientData

  /** The first disagreement found between an array's shape and its labels. */
  datatype ShapeMismatch =
    | RankMismatch(rank: nat, labels: nat)
    | SamplesMismatch(length: nat, count: nat)
    | RepeatedComponentNames
    | ComponentMismatch(axis: nat, length: nat, count: nat)
    | PropertiesMismatch(axis: nat, length: nat, count: nat)

  /** The `InvalidParameter` errors raised by block construction and transformation. */
  datatype BlockError =
    | DataMismatch(context: DataContext, mismatch: ShapeMismatch)
    | NotSingleDimension(component: nat, size: nat)
    | GradientExists(parameter: string)
    | ReservedParameter
    | NoGradientSampleNames
    | InvalidGradientSampleName(name: string)
    | TooFewGradientComponents(gradient: nat, values: nat)
    | GradientComponentMismatch(component: nat)
    | ComponentNotFound(dimensions: seq<string>)
    | InvalidLabels(error: LabelsError)

  // ---------------------------------------------------------------------------
  // Shape against labels

  /**
   * The names of component `i`. Stating the property below through this
   * function means it is only applied to positions a proof names explicitly.
   */
  function NamesAt(components: seq<Labels>, i: nat): seq<string>
    requires i < |components|
  {
    components[i].names
  }

  /** No two components carry the same list of names. */
  predicate DistinctNames(components: seq<Labels>) {
    forall i, j :: 0 <= i < j < |components| ==> NamesAt(components, i) != NamesAt(components, j)
  }

  /**
   * The array has one axis per labels object, each axis as long as its labels
   * have entries, and the components are told apart by their names.
   */
  predicate ShapeMatches(shape: seq<nat>, samples: Labels, components: seq<Labels>, properties: Labels) {
    && |shape| == |components| + 2
    && shape[0] == samples.Count()
    && (forall i :: 0 <= i < |components| ==> shape[i + 1] == components[i].Count())
    && shape[|shape| - 1] == properties.Count()
    && DistinctNames(components)
  }

  /** The set of the components' name lists, as `check_data_and_labels` collects them. */
  function NameSet(components: seq<Labels>): (names: set<seq<string>>)
    ensures forall i :: 0 <= i < |components| ==> components[i].names in names
  {
    if |components| == 0 then {}
    else NameSet(components[..|components| - 1]) + {components[|components| - 1].names}
  }

  /** Counting the distinct name lists detects exactly the repeated ones. */
  lemma {:induction false} NameSetSize(components: seq<Labels>)
    ensures |NameSet(components)| <= |components|
    ensures |NameSet(components)| == |components| <==> DistinctNames(components)
  {
    if |components| > 0 {
      var n := |components| - 1;
      var init := components[..n];
      var last := components[n].names;
      NameSetSize(init);
      assert NameSet(components) == NameSet(init) + {last};
      if last in NameSet(init) {
        assert NameSet(components) == NameSet(init);
        var i := NameSetMember(init, last);
        assert NamesAt(components, i) == NamesAt(components, n);
      } else {
        assert |NameSet(components)| == |NameSet(init)| + 1;
        DistinctNamesSnoc(components, NameSet(init));
      }
    }
  }

  /** Every member of the set is the name list of some component. */
  lemma {:induction false} NameSetMember(components: seq<Labels>, names: seq<string>) returns (i: nat)
    requires names in NameSet(components)
    ensures i < |components| && components[i].names == names
  {
    var n := |components| - 1;
    if components[n].names == names {
      i := n;
    } else {
      i := NameSetMember(components[..n], names);
    }
  }

  /** A last name list not seen before keeps the list of name lists repeat-free. */
  lemma DistinctNamesSnoc(components: seq<Labels>, seen: set<seq<string>>)
    requires |components| > 0
    requires seen == NameSet(components[..|components| - 1])
    requires components[|components| - 1].names !in seen
    ensures DistinctNames(components) <==> DistinctNames(components[..|components| - 1])
  {
    var n := |components| - 1;
    var init := components[..n];
    if DistinctNames(init) {
      forall i, j | 0 <= i < j < |components|
        ensures NamesAt(components, i) != NamesAt(components, j)
      {
        assert components[i] == init[i];
        if j < n {
          assert components[j] == init[j];
          assert NamesAt(init, i) != NamesAt(init, j);
        } else {
          assert init[i].names in seen;
        }
      }
    }
    if DistinctNames(components) {
      forall i, j | 0 <= i < j < n
        ensures NamesAt(init, i) != NamesAt(init, j)
      {
        assert init[i] == components[i] && init[j] == components[j];
        assert NamesAt(components, i) != NamesAt(components, j);
      }
    }
  }

  /** The first interior axis, from component `from` on, whose length is not its component's count. */
  function CheckComponentAxes(shape: seq<nat>, components: seq<Labels>, from: nat): (r: Result<(), ShapeMismatch>)
    requires |shape| == |components| + 2 && from <= |components|
    ensures r.Ok? <==> forall i :: from <= i < |components| ==> shape[i + 1] == components[i].Count()
    ensures r.Err? ==>
      && r.error.ComponentMismatch?
      && from < r.error.axis <= |components|
      && r.error.length == shape[r.error.axis] != r.error.count == components[r.error.axis - 1].Count()
      && forall i :: from <= i < r.error.axis - 1 ==> shape[i + 1] == components[i].Count()
    decreases |components| - from
  {
    if from == |components| then Ok(())
    else if shape[from + 1] != components[from].Count() then
      Err(ComponentMismatch(from + 1, shape[from + 1], components[from].Count()))
    else CheckComponentAxes(shape, components, from + 1)
  }

  /**
   * `check_data_and_labels`: accepts exactly the shapes that match the labels,
   * reporting the rank first, then the samples axis, repeated component names,
   * the component axes in order, and the properties axis last.
   */
  function CheckDataAndLabels(
    context: DataContext, shape: seq<nat>, samples: Labels, components: seq<Labels>, properties: Labels
  ): (r: Result<(), BlockError>)
    ensures r.Ok? <==> ShapeMatches(shape, samples, components, properties)
    ensures r.Err? ==> r.error.DataMismatch? && r.error.context == context
    ensures |shape| != |components| + 2 ==>
      r == Err(DataMismatch(context, RankMismatch(|shape|, |components| + 2)))
    ensures |shape| == |components| + 2 && shape[0] != samples.Count() ==>
      r == Err(DataMismatch(context, SamplesMismatch(shape[0], samples.Count())))
    ensures |shape| == |components| + 2 && shape[0] == samples.Count() && !DistinctNames(components) ==>
      r == Err(DataMismatch(context, RepeatedComponentNames))
    ensures (|shape| == |components| + 2 && shape[0] == samples.Count() && DistinctNames(components)
      && CheckComponentAxes(shape, components, 0).Err?) ==>
      r == Err(DataMismatch(context, CheckComponentAxes(shape, components, 0).error))
    ensures (|shape| == |components| + 2 && shape[0] == samples.Count() && DistinctNames(components)
      && CheckComponentAxes(shape, components, 0).Ok? && shape[|shape| - 1] != properties.Count()) ==>
      r == Err(DataMismatch(context, PropertiesMismatch(|shape| - 1, shape[|shape| - 1], properties.Count())))
  {
    NameSetSize(components);
    if |shape| != |components| + 2 then
      Err(DataMismatch(context, RankMismatch(|shape|, |components| + 2)))
    else if shape[0] != samples.Count() then
      Err(DataMismatch(context, SamplesMismatch(shape[0], samples.Count())))
    else if |NameSet(components)| != |components| then
      Err(DataMismatch(context, RepeatedComponentNames))
    else
      match CheckComponentAxes(shape, components, 0)
      case Err(mismatch) => Err(DataMismatch(context, mismatch))
      case Ok(_) =>
        var last := |components| + 1;
        if shape[last] != properties.Count() then
          Err(DataMismatch(context, PropertiesMismatch(last, shape[last], properties.Count())))
        else
          Ok(())
  }

  /** Every component has exactly one dimension. */
  predicate SingleDimension(components: seq<Labels>) {
    forall i :: 0 <= i < |components| ==> components[i].Size() == 1
  }

  /** `check_component_labels`: reports the first component without exactly one dimension. */
  function CheckComponentLabels(components: seq<Labels>): (r: Result<(), BlockError>)
    ensures r.Ok? <==> SingleDimension(components)
    ensures r.Err? ==>
      && r.error.NotSingleDimension?
      && r.error.component < |components|
      && r.error.size == components[r.error.component].Size() != 1
      && forall i :: 0 <= i < r.error.component ==> components[i].Size() == 1
  {
    CheckComponentLabelsFrom(components, 0)
  }

  function CheckComponentLabelsFrom(components: seq<Labels>, from: nat): (r: Result<(), BlockError>)
    requires from <= |components|
    requires forall i :: 0 <= i < from ==> components[i].Size() == 1
    ensures r.Ok? <==> SingleDimension(components)
    ensures r.Err? ==>
      && r.error.NotSingleDimension?
      && from <= r.error.component < |components|
      && r.error.size == components[r.error.component].Size() != 1
      && forall i :: 0 <= i < r.error.component ==> components[i].Size() == 1
    decreases |components| - from
  {
    if from == |components| then Ok(())
    else if components[from].Size() != 1 then Err(NotSingleDimension(from, components[from].Size()))
    else CheckComponentLabelsFrom(components, from + 1)
  }

  // ---------------------------------------------------------------------------
  // BasicBlock

  /** Every labels object of the block keeps the labels invariant. */
  predicate LabelsValid(b: BasicBlock) {
    && b.samples.Valid()
    && b.properties.Valid()
    && forall i :: 0 <= i < |b.components| ==> b.components[i].Valid()
  }

  /** What every constructed block satisfies. */
  predicate BasicValid(b: BasicBlock) {
    && LabelsValid(b)
    && ShapeMatches(b.shape, b.samples, b.components, b.properties)
    && SingleDimension(b.components)
  }

  /**
   * `BasicBlock::new`: the shape check runs before the single-dimension check,
   * and a block is built exactly when both pass.
   */
  function NewBasicBlock(shape: seq<nat>, samples: Labels, components: seq<Labels>, properties: Labels)
    : (r: Result<BasicBlock, BlockError>)
    ensures r.Ok? <==> ShapeMatches(shape, samples, components, properties) && SingleDimension(components)
    ensures r.Ok? ==> r.value == BasicBlock(shape, samples, components, properties)
    ensures !ShapeMatches(shape, samples, components, properties) ==>
      r.Err? && r.error.DataMismatch? && r.error.context == ValuesData
    ensures ShapeMatches(shape, samples, components, properties) && !SingleDimension(components) ==>
      r.Err? && r.error.NotSingleDimension?
    ensures CheckDataAndLabels(ValuesData, shape, samples, components, properties).Err? ==>
      r == Err(CheckDataAndLabels(ValuesData, shape, samples, components, properties).error)
    ensures (ShapeMatches(shape, samples, components, properties) && CheckComponentLabels(components).Err?) ==>
      r == Err(CheckComponentLabels(components).error)
  {
    var data := CheckDataAndLabels(ValuesData, shape, samples, components, properties);
    if data.Err? then Err(data.error)
    else
      var single := CheckComponentLabels(components);
      if single.Err? then Err(single.error)
      else Ok(BasicBlock(shape, samples, components, properties))
  }

  /** Index of the first component whose names are exactly `dimensions`. */
  function FindComponent(components: seq<Labels>, dimensions: seq<string>): (r: Option<nat>)
    ensures r.Some? ==> r.value < |components| && components[r.value].names == dimensions
    ensures r.Some? ==> forall j {:trigger components[j].names} :: 0 <= j < r.value ==> components[j].names != dimensions
    ensures r.None? <==> forall j {:trigger components[j].names} :: 0 <= j < |components| ==> components[j].names != dimensions
  {
    FindComponentFrom(components, dimensions, 0)
  }

  function FindComponentFrom(components: seq<Labels>, dimensions: seq<string>, from: nat): (r: Option<nat>)
    requires from <= |components|
    requires forall j {:trigger components[j].names} :: 0 <= j < from ==> components[j].names != dimensions
    ensures r.Some? ==> r.value < |components| && components[r.value].names == dimensions
    ensures r.Some? ==> forall j {:trigger components[j].names} :: 0 <= j < r.value ==> components[j].names != dimensions
    ensures r.None? <==> forall j {:trigger components[j].names} :: 0 <= j < |components| ==> components[j].names != dimensions
    decreases |components| - from
  {
    if from == |components| then None
    else if components[from].names == dimensions then Some(from)
    else FindComponentFrom(components, dimensions, from + 1)
  }

  /**
   * `after` is `before` with component `axis` moved into the properties: that
   * component alone is removed, the samples are kept, the new property names
   * are the component's names followed by the old ones, the new property
   * entries are the product (component entry outer, old property inner), and
   * the interior axis is removed from the shape while the last one becomes
   * the new property count.
   */
  ghost predicate IsMoved(before: BasicBlock, after: BasicBlock, axis: nat) {
    && axis < |before.components|
    && |before.shape| == |before.components| + 2
    && after.samples == before.samples
    && after.components == RemoveAt(before.components, axis)
    && after.properties.names == before.components[axis].names + before.properties.names
    && IsProduct(after.properties.values, before.components[axis].values, before.properties.values)
    && after.shape == MergeIntoLast(before.shape, axis + 1, after.properties.Count())
  }

  /**
   * The block a successful move produces, field by field: component `axis`
   * is removed, the samples are kept, the properties become the product of
   * that component with the old properties, and the shape follows.
   */
  function MovedBlock(b: BasicBlock, axis: nat): (r: BasicBlock)
    requires axis < |b.components| && |b.shape| == |b.components| + 2
    ensures |r.components| == |b.components| - 1
  {
    var properties := ProductLabels(b.components[axis], b.properties);
    BasicBlock(MergeIntoLast(b.shape, axis + 1, properties.Count()), b.samples, RemoveAt(b.components, axis), properties)
  }

  /** The spelled-out block is a move of component `axis` in the sense of `IsMoved`. */
  lemma MovedBlockIsMoved(b: BasicBlock, axis: nat)
    requires axis < |b.components| && |b.shape| == |b.components| + 2
    ensures IsMoved(b, MovedBlock(b, axis), axis)
  {
    ProductRowsIsProduct(b.components[axis].values, b.properties.values);
  }

  /** `BasicBlock::components_to_properties`. */
  function MoveComponent(b: BasicBlock, dimensions: seq<string>): (r: Result<BasicBlock, BlockError>)
    requires |b.shape| == |b.components| + 2
    ensures r == Err(ComponentNotFound(dimensions)) <==>
      forall j :: 0 <= j < |b.components| ==> b.components[j].names != dimensions
    ensures r.Ok? ==>
      FindComponent(b.components, dimensions).Some? &&
      r.value == MovedBlock(b, FindComponent(b.components, dimensions).value)
  {
    match FindComponent(b.components, dimensions)
    case None => Err(ComponentNotFound(dimensions))
    case Some(axis) =>
      var moved := b.components[axis];
      var builder := Labels(moved.names + b.properties.names, []);
      var rows := ProductRows(moved.values, b.properties.values);
      match AddEntries(builder, rows)
      case Err(e) => Err(InvalidLabels(e))
      case Ok(properties) =>
        assert builder.values + rows == rows;
        var shape := MergeIntoLast(b.shape, axis + 1, properties.Count());
        Ok(BasicBlock(shape, b.samples, RemoveAt(b.components, axis), properties))
  }

  /** On valid labels the property builder never meets a repeated entry. */
  lemma MoveComponentSucceeds(b: BasicBlock, dimensions: seq<string>, axis: nat)
    requires LabelsValid(b) && |b.shape| == |b.components| + 2
    requires axis < |b.components| && b.components[axis].names == dimensions
    ensures MoveComponent(b, dimensions).Ok?
  {
    var first := FindComponent(b.components, dimensions).value;
    var moved := b.components[first];
    var builder := Labels(moved.names + b.properties.names, []);
    var rows := ProductRows(moved.values, b.properties.values);
    ProductRowsShape(moved.values, b.properties.values, moved.Size(), b.properties.Size());
    ProductRowsDistinct(moved.values, b.properties.values, moved.Size(), b.properties.Size());
    assert builder.values + rows == rows;
    AddEntriesSucceeds(builder, rows);
  }

  /** On valid labels the move fails only for a missing component. */
  lemma MoveComponentFound(b: BasicBlock, dimensions: seq<string>)
    requires LabelsValid(b) && |b.shape| == |b.components| + 2
    ensures MoveComponent(b, dimensions).Ok? <==> FindComponent(b.components, dimensions).Some?
  {
    if FindComponent(b.components, dimensions).Some? {
      MoveComponentSucceeds(b, dimensions, FindComponent(b.components, dimensions).value);
    }
  }

  /** On valid labels, moving the first component named `dimensions` gives exactly the spelled-out block. */
  lemma MoveComponentResult(b: BasicBlock, dimensions: seq<string>, axis: nat)
    requires LabelsValid(b) && |b.shape| == |b.components| + 2
    requires FindComponent(b.components, dimensions) == Some(axis)
    ensures MoveComponent(b, dimensions) == Ok(MovedBlock(b, axis))
  {
    MoveComponentSucceeds(b, dimensions, axis);
  }

  /** Moving a component keeps a valid block valid and keeps its element count. */
  lemma MoveComponentValid(b: BasicBlock, dimensions: seq<string>)
    requires BasicValid(b) && MoveComponent(b, dimensions).Ok?
    ensures BasicValid(MoveComponent(b, dimensions).value)
    ensures Product(MoveComponent(b, dimensions).value.shape) == Product(b.shape)
  {
    var axis := FindComponent(b.components, dimensions).value;
    MoveComponentResult(b, dimensions, axis);
    MovedBlockValid(b, axis);
  }

  /** The spelled-out moved block of a valid block is valid and has as many elements. */
  lemma MovedBlockValid(b: BasicBlock, axis: nat)
    requires BasicValid(b) && axis < |b.components|
    ensures BasicValid(MovedBlock(b, axis))
    ensures Product(MovedBlock(b, axis).shape) == Product(b.shape)
  {
    var r := MovedBlock(b, axis);
    ProductLabelsValid(b.components[axis], b.properties);
    DistinctNamesRemoveAt(b.components, axis);
    assert r.properties.Count() == b.shape[axis + 1] * b.shape[|b.shape| - 1];
    MergeKeepsElementCount(b.shape, axis + 1);
    forall i | 0 <= i < |r.components|
      ensures r.shape[i + 1] == r.components[i].Count()
    {
      if i < axis {
        assert r.components[i] == b.components[i];
      } else {
        assert r.components[i] == b.components[i + 1];
      }
    }
  }

  /** Removing a component keeps the name lists of the others apart. */
  lemma DistinctNamesRemoveAt(components: seq<Labels>, axis: nat)
    requires axis < |components| && DistinctNames(components)
    ensures DistinctNames(RemoveAt(components, axis))
  {
    var r := RemoveAt(components, axis);
    forall i, j | 0 <= i < j < |r|
      ensures NamesAt(r, i) != NamesAt(r, j)
    {
      var i' := if i < axis then i else i + 1;
      var j' := if j < axis then j else j + 1;
      assert r[i] == components[i'] && r[j] == components[j'];
      assert NamesAt(components, i') != NamesAt(components, j');
    }
  }
}

=== FILE: labels.dfy ===
/**
 * The labels attached to every axis of a block: an ordered list of dimension
 * names and one integer entry (a row with one value per name) per position
 * along the axis. The labels implementation itself is not part of this model;
 * it is described here by its observable behaviour: entries have the width of
 * the names, no entry appears twice, and equality is equality of names and
 * entries in order.
 */
module LabelSets {
  import opened Results
  import opened Sequences

  datatype Labels = Labels(names: seq<string>, values: seq<seq<int>>) {

    /** Number of entries, the length of the labelled axis. */
    function Count(): nat {
      |values|
    }

    /** Number of dimensions of every entry. */
    function Size(): nat {
      |names|
    }

    /** The invariant every labels object keeps. */
    predicate Valid() {
      && (forall i :: 0 <= i < |values| ==> |values[i]| == |names|)
      && Distinct(values)
    }

    predicate Contains(entry: seq<int>) {
      entry in values
    }
  }

  /** Index of the first entry equal to `entry`, if there is one. */
  function Position(labels: Labels, entry: seq<int>): (r: Option<nat>)
    ensures r.Some? ==> r.value < labels.Count() && labels.values[r.value] == entry
    ensures r.Some? ==> forall j :: 0 <= j < r.value ==> labels.values[j] != entry
    ensures r.None? <==> !labels.Contains(entry)
  {
    PositionFrom(labels.values, entry, 0)
  }

  function PositionFrom(values: seq<seq<int>>, entry: seq<int>, start: nat): (r: Option<nat>)
    requires start <= |values|
    requires forall j :: 0 <= j < start ==> values[j] != entry
    ensures r.Some? ==> r.value < |values| && values[r.value] == entry
    ensures r.Some? ==> forall j :: 0 <= j < r.value ==> values[j] != entry
    ensures r.None? <==> entry !in values
    decreases |values| - start
  {
    if start == |values| then None
    else if values[start] == entry then Some(start)
    else PositionFrom(values, entry, start + 1)
  }

  /** On valid labels, `position` finds exactly the index holding the entry. */
  lemma PositionIff(labels: Labels, entry: seq<int>, i: nat)
    requires labels.Valid() && i < labels.Count()
    ensures Position(labels, entry) == Some(i) <==> labels.values[i] == entry
  {
  }

  /** Errors of the labels builder. */
  datatype LabelsError =
    | WidthMismatch(expected: nat, got: nat)
    | DuplicateEntry(entry: seq<int>)

  /** The builder's `add`: appends one entry, refusing a wrong width or a repeated entry. */
  function Add(builder: Labels, entry: seq<int>): (r: Result<Labels, LabelsError>)
    ensures r.Ok? <==> |entry| == builder.Size() && !builder.Contains(entry)
    ensures r.Ok? ==> r.value == Labels(builder.names, builder.values + [entry])
    ensures builder.Valid() && r.Ok? ==> r.value.Valid()
  {
    if |entry| != builder.Size() then Err(WidthMismatch(builder.Size(), |entry|))
    else if builder.Contains(entry) then Err(DuplicateEntry(entry))
    else Ok(Labels(builder.names, builder.values + [entry]))
  }

  /** Adds the entries one after the other, stopping at the first refused one. */
  function AddEntries(builder: Labels, entries: seq<seq<int>>): (r: Result<Labels, LabelsError>)
    ensures r.Ok? ==> r.value.names == builder.names
    ensures r.Ok? ==> r.value.values == builder.values + entries
    ensures builder.Valid() && r.Ok? ==> r.value.Valid()
    ensures r.Err? ==>
      exists k ::
        && 0 <= k < |entries|
        && Add(Labels(builder.names, builder.values + entries[..k]), entries[k]) == r
        && forall j :: 0 <= j < k ==> Add(Labels(builder.names, builder.values + entries[..j]), entries[j]).Ok?
    decreases |entries|
  {
    if |entries| == 0 then Ok(builder)
    else
      match Add(builder, entries[0])
      case Err(e) => Err(e)
      case Ok(next) =>
        assert builder.values + entries == next.values + entries[1..];
        AddEntries(next, entries[1..])
  }

  /** The builder accepts every list of entries of the right width with no repeats. */
  lemma {:induction false} AddEntriesSucceeds(builder: Labels, entries: seq<seq<int>>)
    requires forall k :: 0 <= k < |entries| ==> |entries[k]| == builder.Size()
    requires Distinct(builder.values + entries)
    ensures AddEntries(builder, entries) == Ok(Labels(builder.names, builder.values + entries))
    decreases |entries|
  {
    if |entries| > 0 {
      var all := builder.values + entries;
      assert entries[0] !in builder.values by {
        forall j | 0 <= j < |builder.values|
          ensures builder.values[j] != entries[0]
        {
          assert all[j] == builder.values[j] && all[|builder.values|] == entries[0];
        }
      }
      var next := Labels(builder.names, builder.values + [entries[0]]);
      assert Add(builder, entries[0]) == Ok(next);
      assert next.values + entries[1..] == all;
      AddEntriesSucceeds(next, entries[1..]);
    }
  }

  /** `head` prepended to every entry of `rows`. */
  function Prefixed(head: seq<int>, rows: seq<seq<int>>): (r: seq<seq<int>>)
    ensures |r| == |rows|
    ensures forall j :: 0 <= j < |rows| ==> r[j] == head + rows[j]
  {
    seq(|rows|, j requires 0 <= j < |rows| => head + rows[j])
  }

  /**
   * The entries visited by a loop over `outer` with an inner loop over `inner`,
   * each entry being the outer entry followed by the inner one.
   */
  function ProductRows(outer: seq<seq<int>>, inner: seq<seq<int>>): (rows: seq<seq<int>>)
    ensures |rows| == |outer| * |inner|
  {
    if |outer| == 0 then []
    else
      NextRowBlock(|outer|, |inner|, 0);
      Prefixed(outer[0], inner) + ProductRows(outer[1..], inner)
  }

  /** `rows` is the Cartesian product of `outer` and `inner`, outer index varying slowest. */
  ghost predicate IsProduct(rows: seq<seq<int>>, outer: seq<seq<int>>, inner: seq<seq<int>>) {
    && |rows| == |outer| * |inner|
    && forall a, b :: 0 <= a < |outer| && 0 <= b < |inner| ==>
         (ProductIndexBound(a, b, |outer|, |inner|);
          rows[a * |inner| + b] == outer[a] + inner[b])
  }

  /** Position `a * n + b` of an `m`-by-`n` product exists. */
  lemma ProductIndexBound(a: nat, b: nat, m: nat, n: nat)
    requires a < m && b < n
    ensures a * n + b < m * n
  {
    assert a * n + b < a * n + n == (a + 1) * n;
    assert (a + 1) * n <= m * n;
  }

  lemma ProductRowsIsProduct(outer: seq<seq<int>>, inner: seq<seq<int>>)
    ensures IsProduct(ProductRows(outer, inner), outer, inner)
  {
    forall a, b | 0 <= a < |outer| && 0 <= b < |inner|
      ensures a * |inner| + b < |ProductRows(outer, inner)|
      ensures ProductRows(outer, inner)[a * |inner| + b] == outer[a] + inner[b]
    {
      ProductRowsAt(outer, inner, a, b);
    }
  }

  /** Row `a * |inner| + b` pairs outer entry `a` with inner entry `b`. */
  lemma {:induction false} ProductRowsAt(outer: seq<seq<int>>, inner: seq<seq<int>>, a: nat, b: nat)
    requires a < |outer| && b < |inner|
    ensures a * |inner| + b < |ProductRows(outer, inner)|
    ensures ProductRows(outer, inner)[a * |inner| + b] == outer[a] + inner[b]
  {
    var n := |inner|;
    var pre := Prefixed(outer[0], inner);
    var rest := ProductRows(outer[1..], inner);
    assert ProductRows(outer, inner) == pre + rest;
    if a == 0 {
      assert a * n + b == b;
    } else {
      ProductRowsAt(outer[1..], inner, a - 1, b);
      NextRowBlock(a, n, b);
      assert outer[1..][a - 1] == outer[a];
    }
  }

  /** Row `a * n + b` lies one block of `n` rows after row `(a - 1) * n + b`. */
  lemma NextRowBlock(a: nat, n: nat, b: nat)
    requires a > 0
    ensures a * n + b == n + ((a - 1) * n + b)
  {
  }

  /** Every product entry has the combined width and starts with some outer entry. */
  lemma {:induction false} ProductRowsShape(outer: seq<seq<int>>, inner: seq<seq<int>>, w: nat, v: nat)
    requires forall k :: 0 <= k < |outer| ==> |outer[k]| == w
    requires forall k :: 0 <= k < |inner| ==> |inner[k]| == v
    ensures forall k :: 0 <= k < |ProductRows(outer, inner)| ==>
      |ProductRows(outer, inner)[k]| == w + v && ProductRows(outer, inner)[k][..w] in outer
  {
    if |outer| > 0 {
      ProductRowsShape(outer[1..], inner, w, v);
      var pre := Prefixed(outer[0], inner);
      var rest := ProductRows(outer[1..], inner);
      forall k | 0 <= k < |pre + rest|
        ensures |(pre + rest)[k]| == w + v && (pre + rest)[k][..w] in outer
      {
        if k < |pre| {
          assert (pre + rest)[k][..w] == outer[0];
        } else {
          assert (pre + rest)[k] == rest[k - |pre|];
          assert rest[k - |pre|][..w] in outer[1..];
        }
      }
    }
  }

  /** The product of two repeat-free entry lists has no repeated entry. */
  lemma {:induction false} ProductRowsDistinct(outer: seq<seq<int>>, inner: seq<seq<int>>, w: nat, v: nat)
    requires forall k :: 0 <= k < |outer| ==> |outer[k]| == w
    requires forall k :: 0 <= k < |inner| ==> |inner[k]| == v
    requires Distinct(outer) && Distinct(inner)
    ensures Distinct(ProductRows(outer, inner))
  {
    if |outer| > 0 {
      var pre := Prefixed(outer[0], inner);
      var rest := ProductRows(outer[1..], inner);
      assert Distinct(outer[1..]) by {
        forall i, j | 0 <= i < j < |outer| - 1
          ensures outer[1..][i] != outer[1..][j]
        {
          assert outer[1..][i] == outer[i + 1] && outer[1..][j] == outer[j + 1];
        }
      }
      ProductRowsDistinct(outer[1..], inner, w, v);
      ProductRowsShape(outer[1..], inner, w, v);
      forall i, j | 0 <= i < j < |pre|
        ensures pre[i] != pre[j]
      {
        assert pre[i][w..] == inner[i] && pre[j][w..] == inner[j];
      }
      forall i, j | 0 <= i < |pre| && 0 <= j < |rest|
        ensures pre[i] != rest[j]
      {
        assert pre[i][..w] == outer[0];
        var k :| 0 <= k < |outer[1..]| && outer[1..][k] == rest[j][..w];
        assert outer[k + 1] == rest[j][..w];
      }
      DistinctConcat(pre, rest);
    }
  }

  /** Labels whose entries are the product of `outer`'s and `inner`'s, names concatenated. */
  function ProductLabels(outer: Labels, inner: Labels): Labels {
    Labels(outer.names + inner.names, ProductRows(outer.values, inner.values))
  }

  /** The product of two valid labels is valid and has |outer| x |inner| entries. */
  lemma ProductLabelsValid(outer: Labels, inner: Labels)
    requires outer.Valid() && inner.Valid()
    ensures ProductLabels(outer, inner).Valid()
    ensures ProductLabels(outer, inner).Count() == outer.Count() * inner.Count()
  {
    ProductRowsIsProduct(outer.values, inner.values);
    ProductRowsShape(outer.values, inner.values, outer.Size(), inner.Size());
    ProductRowsDistinct(outer.values, inner.values, outer.Size(), inner.Size());
  }
}

=== FILE: operations.dfy ===
/**
 * The structural layer of `solve`: the checks made before anything is
 * computed, the shapes of the flattened and gradient-augmented linear system,
 * and the metadata of the result. The numeric solve itself is the backend's
 * and is represented by the shape of what it returns.
 */
module Operations {
  import opened Results
  import opened LabelSets
  import opened Shapes
  import opened Blocks
  import opened TensorBlocks
  import opened TensorMaps

  /** The two operands of a block solve: the coefficients X and the targets Y. */
  datatype Operand = CoefficientsX | TargetsY

  /**
   * The errors raised by `solve`: its own `ValueError`s, the array library's
   * refusal to flatten an operand with no properties, and a refused result block.
   */
  datatype SolveError =
    | KeysDiffer
    | NotSquare(block: nat)
    | SamplesDiffer
    | ComponentsDiffer
    | ReshapeRefused(operand: Operand)
    | GradientsDiffer
    | InvalidResult(error: BlockError)

  /** The key check made on both maps: the same keys, in the same order. */
  predicate SameKeys(x: TensorMap, y: TensorMap) {
    x.keys == y.keys
  }

  /** The gradient check made on both blocks: gradients with respect to the same parameters. */
  predicate SameGradients(x: TensorBlock, y: TensorBlock) {
    x.gradients.Keys == y.gradients.Keys
  }

  /** The values are a two-dimensional array with as many rows as columns. */
  predicate IsSquare(b: TensorBlock) {
    |b.values.shape| == 2 && b.values.shape[0] == b.values.shape[1]
  }

  /** Every block's values are a square two-dimensional array. */
  predicate AllSquare(blocks: seq<TensorBlock>) {
    forall i :: 0 <= i < |blocks| ==> IsSquare(blocks[i])
  }

  /** The first block, from `from` on, whose values are not a square matrix. */
  function FirstNonSquare(blocks: seq<TensorBlock>, from: nat): (r: Option<nat>)
    requires from <= |blocks|
    ensures r.None? <==> forall i :: from <= i < |blocks| ==> IsSquare(blocks[i])
    ensures r.Some? ==>
      && from <= r.value < |blocks|
      && !IsSquare(blocks[r.value])
      && forall i :: from <= i < r.value ==> IsSquare(blocks[i])
    decreases |blocks| - from
  {
    if from == |blocks| then None
    else if !IsSquare(blocks[from]) then Some(from)
    else FirstNonSquare(blocks, from + 1)
  }

  /** The component comparison as `_solve_block` writes it: made only when X has components. */
  function CheckComponentsAsWritten(x: TensorBlock, y: TensorBlock): (r: Result<(), SolveError>)
    ensures r.Ok? <==> |x.values.components| == 0 || x.values.components == y.values.components
  {
    var xs, ys := x.values.components, y.values.components;
    if |xs| > 0 then
      if |xs| != |ys| then Err(ComponentsDiffer)
      else if exists i :: 0 <= i < |xs| && xs[i] != ys[i] then Err(ComponentsDiffer)
      else Ok(())
    else
      Ok(())
  }

  /** The component comparison as intended: X and Y have the same components in the same order. */
  function CheckComponents(x: TensorBlock, y: TensorBlock): (r: Result<(), SolveError>)
    ensures r.Ok? <==> x.values.components == y.values.components
  {
    var xs, ys := x.values.components, y.values.components;
    if |xs| != |ys| then Err(ComponentsDiffer)
    else if exists i :: 0 <= i < |xs| && xs[i] != ys[i] then Err(ComponentsDiffer)
    else Ok(())
  }

  /**
   * Once every X block passed the square check it has no components, so the
   * comparison as written accepts any Y components.
   */
  lemma SquareSkipsComponentCheck(x: TensorBlock, y: TensorBlock)
    requires TensorValid(x) && IsSquare(x)
    ensures CheckComponentsAsWritten(x, y) == Ok(())
  {
  }

  /** A square X block: two samples, two properties, no component. */
  function SquareX(): (x: TensorBlock)
    ensures x.values.shape == [2, 2] && x.values.components == []
  {
    TensorBlock(BasicBlock([2, 2], Labels(["sample"], [[0], [1]]), [], Labels(["p"], [[0], [1]])), map[], [])
  }

  /** A Y block with X's samples, one component with three entries and one property. */
  function ComponentY(): (y: TensorBlock)
    ensures y.values.shape == [2, 3, 1] && |y.values.components| == 1
  {
    var component := Labels(["m"], [[0], [1], [2]]);
    TensorBlock(BasicBlock([2, 3, 1], Labels(["sample"], [[0], [1]]), [component], Labels(["q"], [[0]])), map[], [])
  }

  /** Both blocks of the counterexample are valid, X is square and the samples agree. */
  lemma CounterexampleBlocksValid()
    ensures TensorValid(SquareX()) && TensorValid(ComponentY()) && IsSquare(SquareX())
    ensures SquareX().values.samples == ComponentY().values.samples
  {
  }

  /**
   * The Y block with a component next to the square X block passes the
   * comparison as written, although the flattened Y has three times as many
   * rows as the flattened X; the intended comparison refuses it.
   */
  lemma ComponentCheckCounterexample()
    ensures CheckComponentsAsWritten(SquareX(), ComponentY()).Ok?
    ensures CheckComponents(SquareX(), ComponentY()).Err?
    ensures Flatten(SquareX().values.shape) == Some(Matrix(2, 2))
    ensures Flatten(ComponentY().values.shape) == Some(Matrix(6, 1))
  {
    var shape := ComponentY().values.shape;
    assert shape[..2] == [2, 3];
    assert Product([2, 3]) == 2 * Product([3]);
  }

  /** A Y block with X's samples and a properties axis of length zero. */
  function NoPropertiesY(): (y: TensorBlock)
    ensures y.values.shape == [2, 0]
  {
    TensorBlock(BasicBlock([2, 0], Labels(["sample"], [[0], [1]]), [], Labels(["q"], [])), map[], [])
  }

  /** An empty square X block: no samples and no properties. */
  function EmptyX(): (x: TensorBlock)
    ensures x.values.shape == [0, 0]
  {
    TensorBlock(BasicBlock([0, 0], Labels(["sample"], []), [], Labels(["p"], [])), map[], [])
  }

  /**
   * Flattening an operand without properties is refused: Y of shape [2, 0]
   * next to the square X, and an empty square X next to itself.
   */
  lemma EmptyPropertiesRefused()
    ensures TensorValid(SquareX()) && TensorValid(NoPropertiesY()) && TensorValid(EmptyX())
    ensures SolveBlock(SquareX(), NoPropertiesY()) == Err(ReshapeRefused(TargetsY))
    ensures SolveBlock(EmptyX(), EmptyX()) == Err(ReshapeRefused(CoefficientsX))
  {
    CounterexampleBlocksValid();
  }

  /**
   * With the intended comparison, equal samples and components make every
   * axis but the last agree in X and Y, so the flattened X and Y have the same
   * number of rows.
   */
  lemma ComponentCheckAlignsRows(x: TensorBlock, y: TensorBlock)
    requires BasicValid(x.values) && BasicValid(y.values)
    requires x.values.samples == y.values.samples && CheckComponents(x, y).Ok?
    ensures x.values.shape[..|x.values.shape| - 1] == y.values.shape[..|y.values.shape| - 1]
    ensures Flatten(x.values.shape).Some? && Flatten(y.values.shape).Some? ==>
      Flatten(x.values.shape).value.rows == Flatten(y.values.shape).value.rows
  {
    var xs, ys := x.values.shape, y.values.shape;
    assert xs[..|xs| - 1] == ys[..|ys| - 1] by {
      forall k | 0 <= k < |xs| - 1
        ensures xs[k] == ys[k]
      {
        if k > 0 {
          assert xs[k] == x.values.components[k - 1].Count();
        }
      }
    }
  }

  /** Number of elements of the gradients of the listed parameters. */
  function GradientElements(gradients: map<string, BasicBlock>, parameters: seq<string>): nat
    requires forall p :: p in parameters ==> p in gradients
  {
    if |parameters| == 0 then 0
    else Product(gradients[parameters[0]].shape) + GradientElements(gradients, parameters[1..])
  }

  /** Every listed parameter has a gradient whose last axis has `cols` entries. */
  predicate Stackable(gradients: map<string, BasicBlock>, parameters: seq<string>, cols: nat) {
    forall p :: p in parameters ==>
      p in gradients && |gradients[p].shape| >= 1 && gradients[p].shape[|gradients[p].shape| - 1] == cols
  }

  /** The gradients of a valid block stack under its flattened values. */
  lemma GradientsStackable(t: TensorBlock, parameters: seq<string>)
    requires TensorValid(t) && forall p :: p in parameters ==> p in t.gradients
    ensures Stackable(t.gradients, parameters, t.values.properties.Count())
  {
    forall p | p in parameters
      ensures |t.gradients[p].shape| >= 1
      ensures t.gradients[p].shape[|t.gradients[p].shape| - 1] == t.values.properties.Count()
    {
      assert GradientValid(t.values, t.gradients[p]);
    }
  }

  /**
   * Stacks below `top` the gradient of every listed parameter, flattened with
   * the same number of columns: rows are added, columns stay, and no element
   * is lost.
   */
  function StackGradients(top: Matrix, gradients: map<string, BasicBlock>, parameters: seq<string>): (r: Matrix)
    requires top.cols > 0 && Stackable(gradients, parameters, top.cols)
    ensures r.cols == top.cols
    ensures r.rows >= top.rows
    ensures r.rows * r.cols == top.rows * top.cols + GradientElements(gradients, parameters)
    decreases |parameters|
  {
    if |parameters| == 0 then top
    else StackGradients(VStack(top, Flatten(gradients[parameters[0]].shape).value), gradients, parameters[1..])
  }

  /**
   * The two matrices handed to the backend, once X's and Y's values have been
   * flattened (both have properties) and the gradients checked: each flattened
   * values array followed by the flattened gradients, parameter by parameter in
   * X's order.
   */
  function LinearSystem(x: TensorBlock, y: TensorBlock): (system: (Matrix, Matrix))
    requires TensorValid(x) && TensorValid(y) && SameGradients(x, y)
    requires x.values.properties.Count() > 0 && y.values.properties.Count() > 0
    ensures system.0.cols == x.values.properties.Count()
    ensures system.1.cols == y.values.properties.Count()
    ensures system.0.rows >= Flatten(x.values.shape).value.rows
    ensures system.1.rows >= Flatten(y.values.shape).value.rows
    ensures system.0.rows * system.0.cols == Product(x.values.shape) + GradientElements(x.gradients, x.parameters)
    ensures system.1.rows * system.1.cols == Product(y.values.shape) + GradientElements(y.gradients, x.parameters)
  {
    GradientsStackable(x, x.parameters);
    GradientsStackable(y, x.parameters);
    var coefficients := StackGradients(Flatten(x.values.shape).value, x.gradients, x.parameters);
    var targets := StackGradients(Flatten(y.values.shape).value, y.gradients, x.parameters);
    (coefficients, targets)
  }

  /**
   * The backend's solve of `coefficients * w = targets`: a weight matrix with
   * one row per coefficient column and one column per target column. The
   * backend is outside the model, so its refusals (row counts that differ, a
   * singular system) are not represented.
   */
  function BackendSolve(coefficients: Matrix, targets: Matrix): (w: Matrix)
    ensures w.rows == coefficients.cols && w.cols == targets.cols
    ensures Times(coefficients, w) == targets <==> coefficients.rows == targets.rows
  {
    Matrix(coefficients.cols, targets.cols)
  }

  /** The shape of the product `a * b`, defined when `a` has as many columns as `b` has rows. */
  function Times(a: Matrix, b: Matrix): Matrix
    requires a.cols == b.rows
  {
    Matrix(a.rows, b.cols)
  }

  /** `weights.T`: rows and columns exchanged. */
  function Transpose(m: Matrix): (t: Matrix)
    ensures t.rows == m.cols && t.cols == m.rows
  {
    Matrix(m.cols, m.rows)
  }

  /** Transposing twice gives the matrix back. */
  lemma TransposeInvolution(m: Matrix)
    ensures Transpose(Transpose(m)) == m
  {
  }

  /**
   * `_solve_block`: checks samples, then components, then flattens X and then
   * Y, then checks gradients; the result has Y's properties as samples, X's
   * properties as properties, no components and no gradients, and its
   * construction cannot fail.
   */
  function SolveBlock(x: TensorBlock, y: TensorBlock): (r: Result<TensorBlock, SolveError>)
    requires TensorValid(x) && TensorValid(y)
    ensures x.values.samples != y.values.samples ==> r == Err(SamplesDiffer)
    ensures x.values.samples == y.values.samples && x.values.components != y.values.components ==>
      r == Err(ComponentsDiffer)
    ensures (x.values.samples == y.values.samples && x.values.components == y.values.components &&
      x.values.properties.Count() == 0) ==> r == Err(ReshapeRefused(CoefficientsX))
    ensures (x.values.samples == y.values.samples && x.values.components == y.values.components &&
      x.values.properties.Count() > 0 && y.values.properties.Count() == 0) ==> r == Err(ReshapeRefused(TargetsY))
    ensures (x.values.samples == y.values.samples && x.values.components == y.values.components &&
      x.values.properties.Count() > 0 && y.values.properties.Count() > 0 && !SameGradients(x, y)) ==>
      r == Err(GradientsDiffer)
    ensures r.Ok? <==>
      && x.values.samples == y.values.samples
      && x.values.components == y.values.components
      && x.values.properties.Count() > 0 && y.values.properties.Count() > 0
      && SameGradients(x, y)
    ensures r.Ok? ==>
      && r.value.values.samples == y.values.properties
      && r.value.values.properties == x.values.properties
      && r.value.values.components == []
      && r.value.gradients == map[]
      && r.value.parameters == []
      && r.value.values.shape == [y.values.properties.Count(), x.values.properties.Count()]
  {
    if x.values.samples != y.values.samples then Err(SamplesDiffer)
    else if CheckComponents(x, y).Err? then Err(ComponentsDiffer)
    else if Flatten(x.values.shape).None? then Err(ReshapeRefused(CoefficientsX))
    else if Flatten(y.values.shape).None? then Err(ReshapeRefused(TargetsY))
    else if !SameGradients(x, y) then Err(GradientsDiffer)
    else
      var (coefficients, targets) := LinearSystem(x, y);
      var weights := Transpose(BackendSolve(coefficients, targets));
      match NewTensorBlock([weights.rows, weights.cols], y.values.properties, [], x.values.properties)
      case Err(e) => Err(InvalidResult(e))
      case Ok(block) => Ok(block)
  }

  /** The solve of the block at key `i`: X's block there, and Y's block looked up by that key. */
  function SolveKey(x: TensorMap, y: TensorMap, i: nat): (r: Result<TensorBlock, SolveError>)
    requires MapValid(x) && MapValid(y) && SameKeys(x, y) && i < |x.blocks|
    ensures r == SolveBlock(x.blocks[i], y.blocks[i])
  {
    match BlockFor(y, x.keys.values[i])
    case None => Err(KeysDiffer)
    case Some(yBlock) => SolveBlock(x.blocks[i], yBlock)
  }

  /** The solve of every key of X, in key order. */
  function SolveEach(x: TensorMap, y: TensorMap): (r: seq<Result<TensorBlock, SolveError>>)
    requires MapValid(x) && MapValid(y) && SameKeys(x, y)
    ensures |r| == |x.blocks|
    ensures forall i :: 0 <= i < |x.blocks| ==> r[i] == SolveBlock(x.blocks[i], y.blocks[i])
  {
    seq(|x.blocks|, i requires 0 <= i < |x.blocks| => SolveKey(x, y, i))
  }

  /** The first failure of a list of results, or the list of their values when none failed. */
  function Collect<T, E>(results: seq<Result<T, E>>): (r: Result<seq<T>, E>)
    ensures r.Ok? <==> forall i :: 0 <= i < |results| ==> results[i].Ok?
    ensures r.Ok? ==> |r.value| == |results| && forall i :: 0 <= i < |results| ==> results[i] == Ok(r.value[i])
    ensures r.Err? ==>
      exists i :: 0 <= i < |results| && results[i] == Err(r.error) &&
        forall j :: 0 <= j < i ==> results[j].Ok?
  {
    if |results| == 0 then Ok([])
    else
      match results[0]
      case Err(e) => Err(e)
      case Ok(v) =>
        match Collect(results[1..])
        case Err(e) => Err(e)
        case Ok(vs) => Ok([v] + vs)
  }

  /**
   * The per-key solves of two maps with the same keys: the first failing
   * block's error, or one solved block per key, in key order.
   */
  function SolveBlocks(x: TensorMap, y: TensorMap): (r: Result<seq<TensorBlock>, SolveError>)
    requires MapValid(x) && MapValid(y) && SameKeys(x, y)
    ensures r.Ok? <==> forall i :: 0 <= i < |x.blocks| ==> SolveKey(x, y, i).Ok?
    ensures r.Ok? ==>
      && |r.value| == |x.blocks|
      && forall i :: 0 <= i < |x.blocks| ==> SolveKey(x, y, i) == Ok(r.value[i])
    ensures r.Err? ==>
      exists i :: 0 <= i < |x.blocks| && SolveKey(x, y, i) == Err(r.error) &&
        forall j :: 0 <= j < i ==> SolveKey(x, y, j).Ok?
  {
    var results := SolveEach(x, y);
    assert forall i :: 0 <= i < |x.blocks| ==> results[i] == SolveKey(x, y, i);
    Collect(results)
  }

  /**
   * `solve`: the keys are checked first, then every X block is checked to be
   * square before any block is solved; the result has X's keys and, at each
   * key, the block solved from X's and Y's blocks at that key.
   */
  function Solve(x: TensorMap, y: TensorMap): (r: Result<TensorMap, SolveError>)
    requires MapValid(x) && MapValid(y)
    ensures !SameKeys(x, y) ==> r == Err(KeysDiffer)
    ensures SameKeys(x, y) && !AllSquare(x.blocks) ==>
      && r.Err? && r.error.NotSquare?
      && r.error.block < |x.blocks|
      && !IsSquare(x.blocks[r.error.block])
      && forall i :: 0 <= i < r.error.block ==> IsSquare(x.blocks[i])
    ensures r.Ok? <==>
      && SameKeys(x, y)
      && AllSquare(x.blocks)
      && (forall i :: 0 <= i < |x.blocks| ==> SolveKey(x, y, i).Ok?)
    ensures r.Ok? ==>
      && r.value.keys == x.keys
      && |r.value.blocks| == |x.blocks|
      && (forall i :: 0 <= i < |x.blocks| ==> SolveKey(x, y, i) == Ok(r.value.blocks[i]))
    ensures SameKeys(x, y) && AllSquare(x.blocks) && r.Err? ==>
      exists i :: 0 <= i < |x.blocks| && SolveKey(x, y, i) == Err(r.error) &&
        forall j :: 0 <= j < i ==> SolveKey(x, y, j).Ok?
  {
    if !SameKeys(x, y) then Err(KeysDiffer)
    else
      match FirstNonSquare(x.blocks, 0)
      case Some(i) => Err(NotSquare(i))
      case None =>
        match SolveBlocks(x, y)
        case Err(e) => Err(e)
        case Ok(blocks) => Ok(TensorMap(x.keys, blocks))
  }

  /** A solved block keeps the block invariant. */
  lemma SolveBlockValid(x: TensorBlock, y: TensorBlock)
    requires TensorValid(x) && TensorValid(y) && SolveBlock(x, y).Ok?
    ensures TensorValid(SolveBlock(x, y).value)
  {
  }

  /** The map returned by `solve` is a valid map: valid keys, one valid block per key. */
  lemma SolveResultValid(x: TensorMap, y: TensorMap)
    requires MapValid(x) && MapValid(y)
    ensures Solve(x, y).Ok? ==> MapValid(Solve(x, y).value)
  {
    if Solve(x, y).Ok? {
      var r := Solve(x, y).value;
      forall i | 0 <= i < |r.blocks|
        ensures TensorValid(r.blocks[i])
      {
        SolveBlockValid(x.blocks[i], y.blocks[i]);
      }
    }
  }
}

=== FILE: results.dfy ===
/** The optional and fallible results used by every validator of the model. */
module Results {

  /** An optional value, as returned by a lookup that may find nothing. */
  datatype Option<+T> = None | Some(value: T)

  /** Either a computed value or the error that stopped the computation. */
  datatype Result<+T, +E> = Ok(value: T) | Err(error: E)
}

=== FILE: sequences.dfy ===
/** Small facts about sequences shared by the label and block models. */
module Sequences {

  /** No element occurs twice. */
  predicate Distinct<T(==)>(s: seq<T>) {
    forall i, j :: 0 <= i < j < |s| ==> s[i] != s[j]
  }

  /** `s` with the element at index `i` removed, the others kept in order. */
  function RemoveAt<T>(s: seq<T>, i: nat): (r: seq<T>)
    requires i < |s|
    ensures |r| == |s| - 1
    ensures forall k :: 0 <= k < i ==> r[k] == s[k]
    ensures forall k :: i <= k < |r| ==> r[k] == s[k + 1]
  {
    s[..i] + s[i + 1..]
  }

  /** Two duplicate-free sequences with no common element concatenate to a duplicate-free one. */
  lemma DistinctConcat<T>(a: seq<T>, b: seq<T>)
    requires Distinct(a) && Distinct(b)
    requires forall i, j :: 0 <= i < |a| && 0 <= j < |b| ==> a[i] != b[j]
    ensures Distinct(a + b)
  {
    forall i, j | 0 <= i < j < |a + b|
      ensures (a + b)[i] != (a + b)[j]
    {
      if j < |a| {
      } else if i < |a| {
        assert (a + b)[j] == b[j - |a|];
      } else {
        assert (a + b)[i] == b[i - |a|] && (a + b)[j] == b[j - |a|];
      }
    }
  }

  /** Removing an element of a sequence's suffix leaves the rest of that suffix at its end. */
  lemma RemoveKeepsSuffix<T>(s: seq<T>, suffix: seq<T>, i: nat)
    requires |s| >= |suffix| && s[|s| - |suffix|..] == suffix && i < |suffix|
    ensures
      var r := RemoveAt(s, |s| - |suffix| + i);
      |r| >= |suffix| - 1 && r[|r| - (|suffix| - 1)..] == RemoveAt(suffix, i)
  {
    var prefix := s[..|s| - |suffix|];
    assert s == prefix + suffix;
    assert (prefix + suffix)[..|prefix| + i] == prefix + suffix[..i];
    assert (prefix + suffix)[|prefix| + i + 1..] == suffix[i + 1..];
    assert RemoveAt(s, |prefix| + i) == prefix + RemoveAt(suffix, i);
  }
}

=== FILE: shapes.dfy ===
/**
 * Array shapes. The model keeps no array contents: a dense array is its list
 * of axis lengths, and the operations on arrays that matter to the metadata
 * (reshape to two dimensions, vertical stacking, moving an axis) are described
 * by what they do to that list.
 */
module Shapes {
  import opened Results
  import opened Sequences

  /** Number of elements of an array with this shape. */
  function Product(shape: seq<nat>): nat {
    if |shape| == 0 then 1 else shape[0] * Product(shape[1..])
  }

  lemma {:induction false} ProductConcat(a: seq<nat>, b: seq<nat>)
    ensures Product(a + b) == Product(a) * Product(b)
  {
    if |a| > 0 {
      assert (a + b)[1..] == a[1..] + b;
      ProductConcat(a[1..], b);
      assert Product(a + b) == a[0] * (Product(a[1..]) * Product(b));
      assert a[0] * (Product(a[1..]) * Product(b)) == (a[0] * Product(a[1..])) * Product(b);
    } else {
      assert a + b == b;
    }
  }

  /** The shape of a two-dimensional array. */
  datatype Matrix = Matrix(rows: nat, cols: nat)

  /**
   * `reshape(-1, n)` with `n` the last axis: the last axis stays as columns and
   * every other axis is folded into the rows. With `n` zero the length `-1`
   * stands for is not determined, and the array libraries refuse the reshape.
   */
  function Flatten(shape: seq<nat>): (r: Option<Matrix>)
    requires |shape| >= 1
    ensures r.None? <==> shape[|shape| - 1] == 0
    ensures r.Some? ==>
      && r.value.cols == shape[|shape| - 1]
      && r.value.rows == Product(shape[..|shape| - 1])
      && r.value.rows * r.value.cols == Product(shape)
  {
    var last := |shape| - 1;
    if shape[last] == 0 then None
    else
      assert shape == shape[..last] + [shape[last]];
      ProductConcat(shape[..last], [shape[last]]);
      Some(Matrix(Product(shape[..last]), shape[last]))
  }

  /** Vertical stacking of two matrices with the same number of columns. */
  function VStack(top: Matrix, bottom: Matrix): (m: Matrix)
    requires top.cols == bottom.cols
    ensures m.cols == top.cols
    ensures m.rows == top.rows + bottom.rows
    ensures m.rows * m.cols == top.rows * top.cols + bottom.rows * bottom.cols
  {
    Matrix(top.rows + bottom.rows, top.cols)
  }

  /**
   * The shape after moving axis `axis` into the last axis, whose new length is
   * `merged`: the last length is replaced first, then the axis is removed.
   */
  function MergeIntoLast(shape: seq<nat>, axis: nat, merged: nat): (r: seq<nat>)
    requires axis < |shape| - 1
    ensures |r| == |shape| - 1
    ensures r[|r| - 1] == merged
    ensures forall k :: 0 <= k < axis ==> r[k] == shape[k]
    ensures forall k :: axis <= k < |r| - 1 ==> r[k] == shape[k + 1]
  {
    RemoveAt(shape[|shape| - 1 := merged], axis)
  }

  /**
   * Moving an axis into the last one keeps the number of elements when the
   * new last length is the product of the two, so the reshape is well defined.
   */
  lemma MergeKeepsElementCount(shape: seq<nat>, axis: nat)
    requires axis < |shape| - 1
    ensures Product(MergeIntoLast(shape, axis, shape[axis] * shape[|shape| - 1])) == Product(shape)
  {
    var last := |shape| - 1;
    var before, moved, middle, tail := shape[..axis], shape[axis], shape[axis + 1..last], shape[last];
    var r := MergeIntoLast(shape, axis, moved * tail);
    var pb, pm := Product(before), Product(middle);
    assert Product(shape) == pb * (moved * (pm * tail)) by {
      assert shape == before + ([moved] + (middle + [tail]));
      ProductConcat(before, [moved] + (middle + [tail]));
      ProductConcat([moved], middle + [tail]);
      ProductConcat(middle, [tail]);
    }
    assert Product(r) == pb * (pm * (moved * tail)) by {
      assert r == before + (middle + [moved * tail]);
      ProductConcat(before, middle + [moved * tail]);
      ProductConcat(middle, [moved * tail]);
    }
    MultiplyExchange(moved, pm, tail);
  }

  /** Multiplication of naturals lets the outer factor trade places with an inner one. */
  lemma MultiplyExchange(a: nat, b: nat, c: nat)
    ensures a * (b * c) == b * (a * c)
  {
  }
}

=== FILE: tensor_blocks.dfy ===
/**
 * `TensorBlock`: the values of one block together with the gradients of these
 * values with respect to named parameters. Every gradient is a block of its
 * own that shares the values' properties.
 */
module TensorBlocks {
  import opened Results
  import opened Sequences
  import opened LabelSets
  import opened Blocks

  /**
   * The values, the gradients by parameter name, and the parameter names in
   * the order the gradients were added (the list the C API exposes).
   */
  datatype TensorBlock = TensorBlock(
    values: BasicBlock,
    gradients: map<string, BasicBlock>,
    parameters: seq<string>
  )

  /**
   * What a stored gradient satisfies: it is a valid block with the values'
   * properties, its first sample dimension is `sample`, and its components end
   * with the values' components (extra ones can only come first).
   */
  predicate GradientValid(values: BasicBlock, gradient: BasicBlock) {
    && BasicValid(gradient)
    && gradient.properties == values.properties
    && |gradient.samples.names| >= 1 && gradient.samples.names[0] == "sample"
    && |gradient.components| >= |values.components|
    && gradient.components[|gradient.components| - |values.components|..] == values.components
  }

  /**
   * The invariant of every block: valid values, valid gradients, and a
   * repeat-free parameter list naming exactly the stored gradients, none of
   * which is the reserved name `values`.
   */
  predicate TensorValid(t: TensorBlock) {
    && BasicValid(t.values)
    && Distinct(t.parameters)
    && t.gradients.Keys == (set p | p in t.parameters)
    && "values" !in t.gradients
    && (forall p :: p in t.gradients ==> GradientValid(t.values, t.gradients[p]))
  }

  /** `TensorBlock::new`: the values block, without any gradient. */
  function NewTensorBlock(shape: seq<nat>, samples: Labels, components: seq<Labels>, properties: Labels)
    : (r: Result<TensorBlock, BlockError>)
    ensures r.Ok? <==> ShapeMatches(shape, samples, components, properties) && SingleDimension(components)
    ensures r.Ok? ==>
      && r.value.values == BasicBlock(shape, samples, components, properties)
      && r.value.gradients == map[]
      && r.value.parameters == []
    ensures r.Err? ==> NewBasicBlock(shape, samples, components, properties) == Err(r.error)
    ensures r.Ok? && LabelsValid(BasicBlock(shape, samples, components, properties)) ==> TensorValid(r.value)
  {
    match NewBasicBlock(shape, samples, components, properties)
    case Err(e) => Err(e)
    case Ok(values) => Ok(TensorBlock(values, map[], []))
  }

  /** The first values component that differs from the gradient component at the same place from the end. */
  function CheckTrailingComponents(gradient: seq<Labels>, values: seq<Labels>, from: nat): (r: Result<(), BlockError>)
    requires |gradient| >= |values| && from <= |values|
    requires forall i :: 0 <= i < from ==> gradient[|gradient| - |values| + i] == values[i]
    ensures r.Ok? <==> gradient[|gradient| - |values|..] == values
    ensures r.Err? ==>
      && r.error.GradientComponentMismatch?
      && from <= r.error.component < |values|
      && gradient[|gradient| - |values| + r.error.component] != values[r.error.component]
      && forall i :: 0 <= i < r.error.component ==> gradient[|gradient| - |values| + i] == values[i]
    decreases |values| - from
  {
    var extra := |gradient| - |values|;
    if from == |values| then
      assert gradient[extra..] == values;
      Ok(())
    else if gradient[extra + from] != values[from] then
      Err(GradientComponentMismatch(from))
    else
      CheckTrailingComponents(gradient, values, from + 1)
  }

  /**
   * The checks `add_gradient` makes on the parameter and the sample names: a
   * new parameter other than the reserved `values`, and samples whose first
   * dimension is `sample`.
   */
  predicate GradientNamesAccepted(t: TensorBlock, parameter: string, samples: Labels) {
    && parameter !in t.gradients
    && parameter != "values"
    && samples.Size() >= 1 && samples.names[0] == "sample"
  }

  /**
   * `TensorBlock::add_gradient`. The checks run in `add_gradient`'s order and all
   * of them precede the insertion, so a failure leaves the block as it was.
   */
  function AddGradient(t: TensorBlock, parameter: string, shape: seq<nat>, samples: Labels, components: seq<Labels>)
    : (r: Result<TensorBlock, BlockError>)
    ensures parameter in t.gradients ==> r == Err(GradientExists(parameter))
    ensures parameter !in t.gradients && parameter == "values" ==> r == Err(ReservedParameter)
    ensures parameter !in t.gradients && parameter != "values" && samples.Size() == 0 ==>
      r == Err(NoGradientSampleNames)
    ensures parameter !in t.gradients && parameter != "values" && samples.Size() > 0 && samples.names[0] != "sample" ==>
      r == Err(InvalidGradientSampleName(samples.names[0]))
    ensures GradientNamesAccepted(t, parameter, samples) && CheckComponentLabels(components).Err? ==>
      r == Err(CheckComponentLabels(components).error)
    ensures (GradientNamesAccepted(t, parameter, samples) && SingleDimension(components)
      && |components| < |t.values.components|) ==>
      r == Err(TooFewGradientComponents(|components|, |t.values.components|))
    ensures (GradientNamesAccepted(t, parameter, samples) && SingleDimension(components)
      && |components| >= |t.values.components|
      && CheckTrailingComponents(components, t.values.components, 0).Err?) ==>
      r == Err(CheckTrailingComponents(components, t.values.components, 0).error)
    ensures (GradientNamesAccepted(t, parameter, samples) && SingleDimension(components)
      && |components| >= |t.values.components|
      && components[|components| - |t.values.components|..] == t.values.components
      && CheckDataAndLabels(GradientData, shape, samples, components, t.values.properties).Err?) ==>
      r == Err(CheckDataAndLabels(GradientData, shape, samples, components, t.values.properties).error)
    ensures r.Ok? <==>
      && GradientNamesAccepted(t, parameter, samples)
      && SingleDimension(components)
      && |components| >= |t.values.components|
      && components[|components| - |t.values.components|..] == t.values.components
      && ShapeMatches(shape, samples, components, t.values.properties)
    ensures r.Ok? ==>
      && r.value.values == t.values
      && r.value.gradients == t.gradients[parameter := BasicBlock(shape, samples, components, t.values.properties)]
      && r.value.parameters == t.parameters + [parameter]
  {
    if parameter in t.gradients then Err(GradientExists(parameter))
    else if parameter == "values" then Err(ReservedParameter)
    else if samples.Size() == 0 then Err(NoGradientSampleNames)
    else if samples.names[0] != "sample" then Err(InvalidGradientSampleName(samples.names[0]))
    else
      var single := CheckComponentLabels(components);
      if single.Err? then Err(single.error)
      else if |t.values.components| > |components| then
        Err(TooFewGradientComponents(|components|, |t.values.components|))
      else
        var trailing := CheckTrailingComponents(components, t.values.components, 0);
        if trailing.Err? then Err(trailing.error)
        else
          var properties := t.values.properties;
          var data := CheckDataAndLabels(GradientData, shape, samples, components, properties);
          if data.Err? then Err(data.error)
          else
            var gradient := BasicBlock(shape, samples, components, properties);
            Ok(TensorBlock(t.values, t.gradients[parameter := gradient], t.parameters + [parameter]))
  }

  /**
   * Adding a gradient keeps the block invariant: the new gradient has the
   * values' properties, and the parameter list stays repeat-free and names
   * exactly the stored gradients.
   */
  lemma AddGradientValid(t: TensorBlock, parameter: string, shape: seq<nat>, samples: Labels, components: seq<Labels>)
    requires TensorValid(t) && samples.Valid()
    requires forall i :: 0 <= i < |components| ==> components[i].Valid()
    requires AddGradient(t, parameter, shape, samples, components).Ok?
    ensures TensorValid(AddGradient(t, parameter, shape, samples, components).value)
    ensures AddGradient(t, parameter, shape, samples, components).value.gradients[parameter].properties ==
      t.values.properties
  {
    var r := AddGradient(t, parameter, shape, samples, components).value;
    assert parameter !in t.parameters;
    forall i, j | 0 <= i < j < |r.parameters|
      ensures r.parameters[i] != r.parameters[j]
    {
      if j == |t.parameters| {
        assert r.parameters[i] == t.parameters[i];
      }
    }
  }

  /**
   * Gradient components are matched against the values' components from the
   * end: appending an extra component instead of prepending it is refused at
   * values component 0.
   */
  lemma AppendedComponentRejected(
    t: TensorBlock, parameter: string, shape: seq<nat>, samples: Labels, component: Labels, extra: Labels
  )
    requires t.values.components == [component] && component != extra
    requires component.Size() == 1 && extra.Size() == 1
    requires parameter !in t.gradients && parameter != "values"
    requires samples.Size() >= 1 && samples.names[0] == "sample"
    ensures AddGradient(t, parameter, shape, samples, [component, extra]) == Err(GradientComponentMismatch(0))
  {
    assert [component, extra][2 - 1..] == [extra];
  }

  /** Moves the component named `dimensions` in every gradient, in parameter order, stopping at the first failure. */
  function MoveGradients(gradients: map<string, BasicBlock>, parameters: seq<string>, dimensions: seq<string>)
    : (r: Result<map<string, BasicBlock>, BlockError>)
    requires forall p :: p in parameters ==> p in gradients && |gradients[p].shape| == |gradients[p].components| + 2
    ensures r.Ok? <==> forall p :: p in parameters ==> MoveComponent(gradients[p], dimensions).Ok?
    ensures r.Ok? ==> r.value.Keys == set p | p in parameters
    ensures r.Ok? ==> forall p :: p in r.value ==>
      && FindComponent(gradients[p].components, dimensions).Some?
      && r.value[p] == MovedBlock(gradients[p], FindComponent(gradients[p].components, dimensions).value)
    decreases |parameters|
  {
    if |parameters| == 0 then Ok(map[])
    else
      match MoveComponent(gradients[parameters[0]], dimensions)
      case Err(e) => Err(e)
      case Ok(moved) =>
        match MoveGradients(gradients, parameters[1..], dimensions)
        case Err(e) => Err(e)
        case Ok(rest) =>
          var first := gradients[parameters[0]];
          assert moved == MovedBlock(first, FindComponent(first.components, dimensions).value);
          assert forall p :: p in parameters <==> p == parameters[0] || p in parameters[1..];
          Ok(rest[parameters[0] := moved])
  }

  /**
   * When the values have the component, a gradient whose components end with
   * the values' components has it too, at the same place counted from the
   * end, and moving it succeeds.
   */
  lemma GradientMoves(gradient: BasicBlock, values: seq<Labels>, dimensions: seq<string>, a: nat)
    requires LabelsValid(gradient) && |gradient.shape| == |gradient.components| + 2
    requires DistinctNames(gradient.components)
    requires |gradient.components| >= |values| && gradient.components[|gradient.components| - |values|..] == values
    requires FindComponent(values, dimensions) == Some(a)
    ensures FindComponent(gradient.components, dimensions) == Some(|gradient.components| - |values| + a)
    ensures MoveComponent(gradient, dimensions).Ok?
  {
    SameComponentFromEnd(values, gradient.components, dimensions, a);
    MoveComponentSucceeds(gradient, dimensions, |gradient.components| - |values| + a);
  }

  /**
   * Moving the same component out of the values and out of a gradient, the
   * latter at index `k` counted with the gradient's extra components, keeps
   * the gradient valid for the moved values.
   */
  lemma MovedGradientValid(values: BasicBlock, gradient: BasicBlock, a: nat, k: nat)
    requires GradientValid(values, gradient) && a < |values.components|
    requires |values.shape| == |values.components| + 2
    requires k == |gradient.components| - |values.components| + a
    ensures GradientValid(MovedBlock(values, a), MovedBlock(gradient, k))
  {
    var extra := |gradient.components| - |values.components|;
    MovedBlockValid(gradient, k);
    assert gradient.components[k] == values.components[a] by {
      assert gradient.components[extra..][a] == values.components[a];
    }
    RemoveKeepsSuffix(gradient.components, values.components, a);
  }

  /** With distinct names, the gradient's first match is the values' match shifted by the extra components. */
  lemma SameComponentFromEnd(values: seq<Labels>, gradient: seq<Labels>, dimensions: seq<string>, a: nat)
    requires |gradient| >= |values| && gradient[|gradient| - |values|..] == values
    requires DistinctNames(gradient)
    requires FindComponent(values, dimensions) == Some(a)
    ensures FindComponent(gradient, dimensions) == Some(|gradient| - |values| + a)
  {
    var extra := |gradient| - |values|;
    assert gradient[extra + a] == gradient[extra..][a];
    forall j | 0 <= j < extra
      ensures gradient[j].names != dimensions
    {
      assert NamesAt(gradient, j) != NamesAt(gradient, extra + a);
    }
    var found := FindComponent(gradient, dimensions);
    assert found.Some?;
  }

  /** Every gradient of values that have the component can move it. */
  lemma AllGradientsMove(values: BasicBlock, gradients: map<string, BasicBlock>, dimensions: seq<string>, a: nat)
    requires forall p :: p in gradients ==> GradientValid(values, gradients[p])
    requires FindComponent(values.components, dimensions) == Some(a)
    ensures forall p :: p in gradients ==>
      |gradients[p].shape| == |gradients[p].components| + 2 && MoveComponent(gradients[p], dimensions).Ok?
  {
    forall p | p in gradients
      ensures |gradients[p].shape| == |gradients[p].components| + 2 && MoveComponent(gradients[p], dimensions).Ok?
    {
      var g := gradients[p];
      assert GradientValid(values, g);
      GradientMoves(g, values.components, dimensions, a);
    }
  }

  /** A gradient moved at its own first match is a gradient of the moved values. */
  lemma MovedGradientAgrees(values: BasicBlock, gradient: BasicBlock, moved: BasicBlock, dimensions: seq<string>, a: nat)
    requires GradientValid(values, gradient) && |values.shape| == |values.components| + 2
    requires FindComponent(values.components, dimensions) == Some(a)
    requires FindComponent(gradient.components, dimensions).Some?
    requires moved == MovedBlock(gradient, FindComponent(gradient.components, dimensions).value)
    ensures GradientValid(MovedBlock(values, a), moved)
  {
    var k := FindComponent(gradient.components, dimensions).value;
    assert k == |gradient.components| - |values.components| + a by {
      SameComponentFromEnd(values.components, gradient.components, dimensions, a);
    }
    MovedGradientValid(values, gradient, a, k);
  }

  /** Every moved gradient is a gradient of the moved values. */
  lemma MovedGradientsValid(
    values: BasicBlock, gradients: map<string, BasicBlock>, moved: map<string, BasicBlock>, dimensions: seq<string>, a: nat
  )
    requires forall p :: p in gradients ==> GradientValid(values, gradients[p])
    requires |values.shape| == |values.components| + 2
    requires FindComponent(values.components, dimensions) == Some(a)
    requires forall p :: p in moved ==>
      && p in gradients
      && |gradients[p].shape| == |gradients[p].components| + 2
      && FindComponent(gradients[p].components, dimensions).Some?
      && moved[p] == MovedBlock(gradients[p], FindComponent(gradients[p].components, dimensions).value)
    ensures forall p :: p in moved ==> GradientValid(MovedBlock(values, a), moved[p])
  {
    forall p | p in moved
      ensures GradientValid(MovedBlock(values, a), moved[p])
    {
      MovedGradientAgrees(values, gradients[p], moved[p], dimensions, a);
    }
  }

  /**
   * `TensorBlock::components_to_properties`: nothing to do for an empty list
   * of dimensions; otherwise the component is moved in the values and then in
   * every gradient.
   */
  function ComponentsToProperties(t: TensorBlock, dimensions: seq<string>): (r: Result<TensorBlock, BlockError>)
    requires TensorValid(t)
    ensures |dimensions| == 0 ==> r == Ok(t)
    ensures |dimensions| > 0 ==>
      (r.Ok? <==> exists j :: 0 <= j < |t.values.components| && t.values.components[j].names == dimensions)
    ensures r.Err? ==> r == Err(ComponentNotFound(dimensions))
    ensures r.Ok? ==> r.value.parameters == t.parameters && r.value.gradients.Keys == t.gradients.Keys
    ensures |dimensions| > 0 && r.Ok? ==>
      && FindComponent(t.values.components, dimensions).Some?
      && r.value.values == MovedBlock(t.values, FindComponent(t.values.components, dimensions).value)
      && forall p :: p in r.value.gradients ==>
        && FindComponent(t.gradients[p].components, dimensions).Some?
        && r.value.gradients[p] == MovedBlock(t.gradients[p], FindComponent(t.gradients[p].components, dimensions).value)
  {
    if |dimensions| == 0 then Ok(t)
    else
      MoveComponentFound(t.values, dimensions);
      match MoveComponent(t.values, dimensions)
      case Err(e) => Err(e)
      case Ok(values) =>
        AllGradientsMove(t.values, t.gradients, dimensions, FindComponent(t.values.components, dimensions).value);
        match MoveGradients(t.gradients, t.parameters, dimensions)
        case Err(e) => Err(e)
        case Ok(gradients) => Ok(TensorBlock(values, gradients, t.parameters))
  }

  /**
   * Moving a component keeps the block invariant; in particular every
   * gradient still has the values' properties afterwards.
   */
  lemma ComponentsToPropertiesValid(t: TensorBlock, dimensions: seq<string>)
    requires TensorValid(t) && ComponentsToProperties(t, dimensions).Ok?
    ensures TensorValid(ComponentsToProperties(t, dimensions).value)
    ensures forall p :: p in ComponentsToProperties(t, dimensions).value.gradients ==>
      ComponentsToProperties(t, dimensions).value.gradients[p].properties ==
      ComponentsToProperties(t, dimensions).value.values.properties
  {
    if |dimensions| > 0 {
      var r := ComponentsToProperties(t, dimensions).value;
      var a := FindComponent(t.values.components, dimensions).value;
      MovedBlockValid(t.values, a);
      MovedGradientsValid(t.values, t.gradients, r.gradients, dimensions, a);
    }
  }
}

=== FILE: tensor_maps.dfy ===
/** A tensor map: a set of keys and one block per key, in key order. */
module TensorMaps {
  import opened Results
  import opened LabelSets
  import opened TensorBlocks

  datatype TensorMap = TensorMap(keys: Labels, blocks: seq<TensorBlock>)

  /** Valid keys, one block per key, and every block keeping the block invariant. */
  predicate MapValid(m: TensorMap) {
    && m.keys.Valid()
    && |m.blocks| == m.keys.Count()
    && forall i :: 0 <= i < |m.blocks| ==> TensorValid(m.blocks[i])
  }

  /** `TensorMap.block(key)`: the block stored at the position of `key`, if the key is present. */
  function BlockFor(m: TensorMap, key: seq<int>): (r: Option<TensorBlock>)
    requires |m.blocks| == m.keys.Count()
    ensures r.None? <==> !m.keys.Contains(key)
    ensures m.keys.Valid() ==>
      forall i :: 0 <= i < |m.blocks| && m.keys.values[i] == key ==> r == Some(m.blocks[i])
  {
    match Position(m.keys, key)
    case None => None
    case Some(i) =>
      assert m.keys.Valid() ==> forall j :: 0 <= j < |m.blocks| && m.keys.values[j] == key ==> i == j by {
        if m.keys.Valid() {
          forall j | 0 <= j < |m.blocks| && m.keys.values[j] == key
            ensures i == j
          {
            PositionIff(m.keys, key, j);
          }
        }
      }
      Some(m.blocks[i])
  }
}
